=== FILE: README.md ===
# Particle command builder — a Dafny model

This project models the pure logic behind the command builder of a Minecraft
`/particle` command generator (a React page, `App.tsx`).

- **Validation.** The builder keeps a ten-field record of raw input strings. The fields are particle, x, y, z, dx, dy, dz, speed, count and mode. Each edited input is checked by a field validator. The validator yields an error key: `''`, `required`, `invalid_coord`, `invalid_number`, `invalid_integer` or `min_zero`.
- **Commands and the log.** The record is rendered as `/particle f1 … f10`. Copying that text logs the record being edited, in a log of at most ten records, newest first, when:
  - it is not a preset copy;
  - no error entry is non-empty;
  - the text differs from the newest logged command's text.
- **Restore and clear.** Restore loads a logged record and clears the error entries. Clear empties the log.
- **Palette.** The preview picks a colour palette from the particle name with first-match-wins rules:
  1. coloured dust;
  2. the note and potion-swirl kinds with the zero count;
  3. an ordered table of name fragments;
  4. white.

The modules follow those parts:

| module | file | what it holds |
|---|---|---|
| `Options` | options.dfy | the optional-value datatype |
| `Text` | text.dfy | the JavaScript string operations the code relies on: `trim` with its full white-space set, `includes`, `startsWith`, `split(' ')` (empty pieces kept), and its inverse, a single-space join |
| `Numbers` | numbers.dfy | `Number(string)` along the lines of the ECMAScript StringToNumber grammar, with the values `NaN`, finite, `Infinity` and `-Infinity`. It covers trimming, blank text reading as 0, sign, `Infinity`, decimals with fraction and exponent, and the `0x`/`0o`/`0b` prefixes |
| `Coordinates` | coordinates.dfy | the coordinate pattern `^([~^]?(\-?\d*(\.\d+)?)?)$` as recursive predicates, plus a token datatype that parses to and renders from exactly that language |
| `Commands` | commands.dfy | the `CommandState` record, the input names, field update, and `generateCommandStr` |
| `Validation` | validation.dfy | `validateField` |
| `Palette` | palette.dfy | the branch structure of `getColors` |
| `Builder` | builder.dfy | the session: input change, copy with the history gate, restore, clear |

The code has no text-to-record decoder and no physics-profile table; neither is modelled.

## Model

| member | source | states |
|---|---|---|
| Text.Trim | App.tsx:232 | the trimmed text is empty exactly when the text is all white space, and otherwise neither starts nor ends with white space |
| Text.TrimCutsBlankEnds | App.tsx:232 | trimming removes only white space: the result is a contiguous piece of the text, and what lies before and after it is blank |
| Text.TrimStart | App.tsx:232 | the leading part removed is all white space, the rest is a suffix of the text, and it does not start with white space |
| Text.TrimOfTrimmed | App.tsx:232 | text that neither starts nor ends with white space trims to itself |
| Text.Split | App.tsx:60 | `split(' ')` always yields at least one piece and no piece holds a space |
| Text.SplitAtSpace | App.tsx:60 | splitting `a + " " + b` gives the pieces of `a` followed by those of `b` |
| Text.SplitCons | App.tsx:60 | a space-free piece followed by a space and more text splits into that piece and the pieces of the rest |
| Text.JoinSplit | App.tsx:60 | joining the pieces with single spaces gives back the original text |
| Text.SplitJoin | App.tsx:60 | splitting a single-space join of space-free pieces gives back the pieces |
| Text.DigitRunOfDigits | App.tsx:243 | the leading digit run of digits followed by a non-digit is exactly those digits |
| Numbers.ToNumberOfTrimmed | App.tsx:243 | `Number` reads text without surrounding white space as the literal itself |
| Numbers.ToNumberOfInteger | App.tsx:251-254 | an optionally negated digit string converts to that integer, and is not blank |
| Numbers.ToNumberOfFraction | App.tsx:246-248 | an optionally negated decimal `whole.fraction` converts to its exact value |
| Numbers.FractionNotInteger | App.tsx:253 | a decimal whose fraction ends in a non-zero digit is not an integer, under either sign |
| Numbers.ToNumberOfNonNumeric | App.tsx:243 | text whose first character is neither white space nor the start of a number converts to NaN, whatever follows, trailing white space included |
| Numbers.DecimalScaledPositive | App.tsx:248 | a scaled decimal is never negative and is positive exactly when its digits are not all zero |
| Coordinates.ParseCoordinate | App.tsx:238 | the parser succeeds exactly on the text the coordinate pattern accepts, and the token it returns is well formed and renders back to that text |
| Coordinates.ParseSignedDecimal | App.tsx:238 | the sign-and-decimal part of the pattern is read exactly when it matches, into digits and a fraction that render back to the text |
| Coordinates.ParseSignedDecimalRender | App.tsx:238 | a rendered sign, digit run and fraction read back as those same parts |
| Coordinates.ParseRender | App.tsx:238 | every well-formed coordinate token renders to text that parses back to the same token |
| Coordinates.CoordinateLanguage | App.tsx:238 | the pattern accepts a text exactly when some well-formed token renders to it |
| Coordinates.RenderIsCoordinate | App.tsx:238 | every well-formed token renders to a text the pattern accepts |
| Coordinates.CoordinateExamples | App.tsx:238 | `~`, `^`, `~-5` and `.5` are coordinates; `~~`, `5.` and ` ~` are not |
| Commands.FieldNamed | App.tsx:261 | an input name maps to the input that carries it, and a name no input carries maps to nothing |
| Commands.FieldNamedKey | App.tsx:261 | every input's own name maps back to that input |
| Commands.KeysDistinct | App.tsx:265-268 | different inputs carry different names, so their error entries are distinct |
| Commands.With | App.tsx:262 | the named field takes the new text and every other field keeps its own |
| Commands.FieldsDetermineState | types.ts:25-36 | two records that agree on every field are equal |
| Commands.WithDetermined | App.tsx:262 | the field update is pinned down by its contract: any record holding the new text in the named field and agreeing elsewhere is the updated record |
| Commands.EncodeShape | App.tsx:271-273 | the command is the keyword, a space, the particle, a space, and the nine remaining fields joined by single spaces |
| Commands.EncodeTokens | App.tsx:271-273 | split on spaces, a command is the keyword, the particle's own pieces, then the nine remaining fields one piece each, when those nine hold no space |
| Commands.EncodeInjective | App.tsx:271-273 | records whose nine trailing fields hold no space produce the same command only if they are equal |
| Commands.EncodeCollision | App.tsx:271-273 | a space inside a field lets two different records produce the same command |
| Validation.Validate | App.tsx:231-258 | `required` is returned exactly for blank text, whatever the name; each other error key only for the names whose rule produces it |
| Validation.ValidateNumeric | App.tsx:240-255 | non-blank text under dx/dy/dz, speed and count is judged by that name's rule on the number the text converts to |
| Validation.IsErrorExactlyNonEmpty | App.tsx:281 | an error key counts as an error exactly when it is not the empty key |
| Validation.ValidateCoordinate | App.tsx:235-239 | non-blank x/y/z text is accepted exactly when it is in the coordinate language, and is otherwise `invalid_coord` |
| Validation.ValidateCoordinateAccepts | App.tsx:235-239 | a non-blank x/y/z text in the coordinate language passes |
| Validation.ValidateCoordinateRejects | App.tsx:235-239 | a non-blank x/y/z text outside the coordinate language is `invalid_coord` |
| Validation.ValidateUntyped | App.tsx:232-257 | particle, mode and any name without a rule only need non-blank text |
| Validation.CountRuleOfInteger | App.tsx:250-255 | an integer count fails only when it is below zero, and then with `min_zero` |
| Validation.ValidateCountInteger | App.tsx:250-255 | a count written as an optionally negated digit string is accepted unless it is below zero |
| Validation.ValidateCountFraction | App.tsx:250-255 | a count with a fraction ending in a non-zero digit is `invalid_integer` under either sign, because the integer check comes before the sign check |
| Validation.ValidateSpeedDecimal | App.tsx:245-249 | a speed written as `[-]whole.fraction`, with at least one fraction digit, is accepted unless it is below zero |
| Validation.ValidateNonNumeric | App.tsx:240-255 | text whose first character is neither white space nor the start of a number is `invalid_number` under every numeric name |
| Validation.ValidateExamples | App.tsx:231-258 | `-1` as a count is `min_zero`; `1.5` and `-1.5` are `invalid_integer`; `10` as a count and `0.1` as a speed pass; `~~` is `invalid_coord`; `~-5` passes; `~` as a delta is `invalid_number` |
| Palette.FindRule | App.tsx:95-97 | the scan returns the first table entry whose fragment occurs in the name, and nothing exactly when no fragment occurs |
| Palette.FirstMatchUnique | App.tsx:95-97 | at most one entry is the first match |
| Palette.GetColors | App.tsx:55-99 | every particle gets a palette with at least one colour |
| Palette.GetColorsDust | App.tsx:59-66 | a `dust` name with at least four pieces is drawn in the one colour read from pieces two to four, an empty piece reading as zero |
| Palette.GetColorsColourMode | App.tsx:70-77 | past the dust rule, with count `0` or `0.0`, a name holding `note` gets the fixed four-colour palette, and a potion swirl without `note` gets one clamped colour from the deltas |
| Palette.GetColorsFromTable | App.tsx:80-98 | past the first two rules, the palette is that of the first table entry whose fragment occurs in the name, and white when none does |
| Palette.GetColorsReads | App.tsx:56 | the palette depends only on the name, the deltas and the count |
| Palette.CampfireSmoke | App.tsx:81-96 | `campfire_cosy_smoke` takes the smoke palette |
| Palette.SoulFireFlame | App.tsx:81-96 | `soul_fire_flame` takes the flame palette, since flame comes before soul |
| Palette.BareDust | App.tsx:59-98 | bare `dust` has too few pieces, matches no fragment, and is drawn white |
| Palette.DustWithChannels | App.tsx:59-65 | `dust 1.0 0.0 0.0 1.0` is drawn in the colour of its first three numbers |
| Palette.DustColourTransition | App.tsx:59-65 | the two-colour transition dust also starts with `dust` and is drawn in its first colour alone |
| Palette.EntityEffectColourMode | App.tsx:70-98 | `entity_effect` is drawn in the colour of its deltas with a zero count, and white otherwise |
| Palette.NoteColourMode | App.tsx:70-75 | `note` with count `0` is drawn in the four fixed colours |
| Builder.SetEntry | App.tsx:265-268 | the updated error map has the old keys plus the input's own, that key holds the new verdict, and every other entry is kept |
| Builder.HandleInputChange | App.tsx:260-269 | the edited field takes the text and every other field keeps its own; the input's error entry is added or replaced and holds `validateField(name, value)`, which is `required` exactly for blank text; every other entry and the log are unchanged |
| Builder.HandleInputChangeTracks | App.tsx:260-269 | editing keeps every error entry equal to the verdict on its input's current text |
| Builder.NoErrorsMeansEditedValid | App.tsx:281 | while entries track the record, the copy gate is open exactly when every edited input passes its check |
| Builder.Take | App.tsx:286 | `slice(0, n)` keeps the first `n` entries, or all when there are fewer |
| Builder.RecordHistory | App.tsx:283-287 | a command equal to the newest entry's text leaves the log unchanged; otherwise the record is entry 0, the rest is a prefix of the old log, and the length is one more than before, capped at ten |
| Builder.RecordFresh | App.tsx:284-286 | a copy whose command differs from the newest entry's puts the record in front and cuts the log to ten |
| Builder.CopyToClipboard | App.tsx:279-289 | a copy never changes the record or the error entries; a preset copy, or one made while some entry is an error, leaves the log alone; any other copy updates the log with the record being edited |
| Builder.CopyCommand | App.tsx:275-277 | after an ungated copy of the record's own command, the newest entry has that command's text |
| Builder.Restore | App.tsx:597-600 | restore loads the logged record, keeps the log, and empties the error map |
| Builder.ClearHistory | App.tsx:579 | clear empties the log and keeps the record and the error entries |
| Builder.InitialStateValid | App.tsx:216-223 | every input's initial text passes its own check |
| Builder.SessionInvariant | App.tsx:228-269 | the opening session has entries that track the record and no error; editing, copying and clearing keep the entries tracking the record |
| Builder.GateMeansValid | App.tsx:281 | in a sound session an open copy gate means all ten inputs of the record pass their checks, edited or not |
| Builder.SoundInitial | App.tsx:216-229 | the opening session is sound: no entries, every initial input valid, an empty log |
| Builder.SoundHandleInputChange | App.tsx:260-269 | editing keeps the session sound |
| Builder.SoundCopyToClipboard | App.tsx:279-288 | copying keeps the session sound: only a record that passes every check is ever logged |
| Builder.SoundRestore | App.tsx:597-600 | restoring keeps the session sound: the loaded record passes every check, so the empty error map is the verdict on every input |
| Builder.SoundClearHistory | App.tsx:579 | clearing keeps the session sound |
| Builder.RestoreNeedsNoValidation | App.tsx:597-600 | in a sound session the restored record passes every check and no entry is an error, so dropping the entries without re-validating loses nothing |
| Builder.CopyCommandIdempotent | App.tsx:279-288 | copying twice in a row is the same as copying once |
| Builder.SameCommandTwice | App.tsx:279-288 | when no error entry is set, copying the same command twice into an empty log leaves one entry |
| Builder.RestoreNewestThenCopy | App.tsx:597-600 | copying right after restoring the newest entry leaves the log unchanged |
| Builder.CopyAfterClear | App.tsx:579 | after a clear, a copy logs exactly the record being edited, unless an entry is an error |
| Builder.PresetCopyKeepsHistory | App.tsx:280 | a preset copy changes nothing |
| Builder.HistoryBounded | App.tsx:283-287 | a log within capacity stays within capacity whatever is copied |
| Builder.RecordEachDistinct | App.tsx:283-287 | a run of copies whose consecutive commands differ logs them all newest first, keeping only the ten most recent of them and the old log |
| Builder.OldestDropped | App.tsx:283-287 | eleven different consecutive commands copied into an empty log fill it, and the first of them is dropped |
| Builder.DuplicateMeansSameRecord | App.tsx:284 | when no trailing field holds a space, a copy is skipped as a duplicate exactly when the record is the newest logged one |
| Builder.DuplicateTextSkipsDifferentRecord | App.tsx:284 | duplicates are judged by text, so a different record whose command reads the same as the newest entry's is not logged |

## Left out

- The canvas preview loop of `ParticlePreview` (App.tsx:101-192): random sampling, floating-point motion and drawing calls.
- The channel arithmetic in `getColors` (App.tsx:62-64, 71-76), that is `parseFloat(...) * 255` and its floor. A computed colour is kept abstract: it records the three strings it is read from and whether it is clamped at zero.
- `hexToRgb` and `hexToHue` (App.tsx:8-39), and the load-into-builder handler that uses them (App.tsx:454-491). Both are floating-point arithmetic with `toFixed` formatting.
- The clipboard write and the alert (App.tsx:291-292), all markup, the sidebar and terminal components, and the translation and catalog data in constants.ts.
- Numbers.ToNumber: values are exact reals. The model does not round to the nearest double, and it does not overflow to `Infinity` for huge literals. A literal that is an integer only after double rounding, such as `1.0000000000000000001`, is therefore judged not to be an integer by `Validate`.
- Validation.Validate: `value.trim()` is taken on the JavaScript white-space set. The set is written out in the model, and code points outside the Basic Multilingual Plane play no part.
- Builder.HandleInputChange: takes one of the ten inputs rather than an arbitrary `name` string, since only the ten inputs call it. `Validation.Validate` itself still accepts any name.
- Commands.CommandState: `mode` is kept as the raw string the select writes. Its declared type narrows it to `force` or `normal`, but the handler stores whatever text it is given.
- Builder.Restore: takes the position of the logged record, because a restore button exists only for a logged entry.

=== FILE: builder.dfy ===
/**
 * The command builder's session: the record being edited, the error entry of
 * every input edited since the last reset, and the log of copied commands,
 * newest first. Every handler is a function from the old session to the new.
 */
module Builder {
  import opened Text
  import opened Commands
  import opened Validation

  /** The log keeps at most this many commands. */
  const Capacity: nat := 10

  /** The record the form opens with: `/particle flame ~ ~1 ~ 0 0 0 0.1 10 normal`. */
  const InitialState: CommandState := CommandState("flame", "~", "~1", "~", "0", "0", "0", "0.1", "10", "normal")

  datatype Session = Session(state: CommandState, errors: map<string, ErrorKey>, history: seq<CommandState>)

  /** The form opens with no error entries and an empty log. */
  const InitialSession: Session := Session(InitialState, map[], [])

  /** `Object.keys(errors).some(k => errors[k])`: some entry holds a non-empty key. */
  predicate HasErrors(errors: map<string, ErrorKey>) {
    exists k | k in errors :: errors[k].IsError()
  }

  /** Every error entry belongs to an input and holds the verdict on that input's current text. */
  predicate ErrorsTrackState(s: Session) {
    forall k | k in s.errors ::
      FieldNamed(k).Some? && s.errors[k] == Validate(k, Get(s.state, FieldNamed(k).value))
  }

  /** `setErrors(prev => ({...prev, [key]: verdict}))`: one entry added or replaced, the others kept. */
  function SetEntry(errors: map<string, ErrorKey>, key: string, verdict: ErrorKey): (m: map<string, ErrorKey>)
    ensures m.Keys == errors.Keys + {key}
    ensures m[key] == verdict
    ensures forall k | k in errors && k != key :: m[k] == errors[k]
  {
    errors[key := verdict]
  }

  /** `handleInputChange`: the edited input takes the new text and its error entry the verdict on it. */
  function HandleInputChange(s: Session, f: FieldName, value: string): (r: Session)
    ensures Get(r.state, f) == value
    ensures forall g :: g != f ==> Get(r.state, g) == Get(s.state, g)
    ensures r.errors.Keys == s.errors.Keys + {f.Key()}
    ensures r.errors[f.Key()] == Validate(f.Key(), value)
    ensures r.errors[f.Key()] == Required <==> IsBlank(value)
    ensures forall k | k in s.errors && k != f.Key() :: r.errors[k] == s.errors[k]
    ensures r.history == s.history
  {
    var verdict := Validate(f.Key(), value);
    assert verdict == Required <==> IsBlank(value);
    Session(With(s.state, f, value), SetEntry(s.errors, f.Key(), verdict), s.history)
  }

  /** Editing keeps every error entry in step with the record. */
  lemma HandleInputChangeTracks(s: Session, f: FieldName, value: string)
    requires ErrorsTrackState(s)
    ensures ErrorsTrackState(HandleInputChange(s, f, value))
  {
    var r := HandleInputChange(s, f, value);
    FieldNamedKey(f);
    forall k | k in r.errors
      ensures FieldNamed(k).Some? && r.errors[k] == Validate(k, Get(r.state, FieldNamed(k).value))
    {
      if k != f.Key() {
        var g := FieldNamed(k).value;
        assert g != f;
      }
    }
  }

  /** With the entries in step, the copy gate is open exactly when every edited input is valid. */
  lemma NoErrorsMeansEditedValid(s: Session)
    requires ErrorsTrackState(s)
    ensures !HasErrors(s.errors) <==> forall f: FieldName | f.Key() in s.errors :: Validate(f.Key(), Get(s.state, f)) == NoError
  {
    if !HasErrors(s.errors) {
      forall f: FieldName | f.Key() in s.errors
        ensures Validate(f.Key(), Get(s.state, f)) == NoError
      {
        FieldNamedKey(f);
        IsErrorExactlyNonEmpty(s.errors[f.Key()]);
      }
    } else {
      var k :| k in s.errors && s.errors[k].IsError();
      var f := FieldNamed(k).value;
      FieldNamedKey(f);
      IsErrorExactlyNonEmpty(s.errors[k]);
      assert f.Key() in s.errors && Validate(f.Key(), Get(s.state, f)) != NoError;
    }
  }

  /** `slice(0, n)`: the first `n` entries, or all of them when there are fewer. */
  function Take<T>(xs: seq<T>, n: nat): (r: seq<T>)
    ensures |r| == if |xs| <= n then |xs| else n
    ensures r == xs[..|r|]
  {
    if |xs| <= n then xs else xs[..n]
  }

  /** The log update on a copy of `text` made from `current`: a command equal to the newest entry's
      text is not logged again; any other is logged first, and the oldest entry past the capacity
      is dropped. */
  function RecordHistory(h: seq<CommandState>, current: CommandState, text: string): (r: seq<CommandState>)
    ensures |h| > 0 && Encode(h[0]) == text ==> r == h
    ensures !(|h| > 0 && Encode(h[0]) == text) ==>
              (|r| == if |h| < Capacity then |h| + 1 else Capacity)
              && r[0] == current && r[1..] == h[..|r| - 1]
    ensures |h| <= Capacity ==> |r| <= Capacity
  {
    if |h| > 0 && Encode(h[0]) == text then h
    else Take([current] + h, Capacity)
  }

  /** `copyToClipboard(text, isPreset)`: a preset copy, or a copy while some entry holds an error,
      leaves the log alone; otherwise the log is updated with the record being edited. The record and
      the error entries never change. */
  function CopyToClipboard(s: Session, text: string, isPreset: bool): (r: Session)
    ensures r.state == s.state && r.errors == s.errors
    ensures isPreset || HasErrors(s.errors) ==> r.history == s.history
    ensures !isPreset && !HasErrors(s.errors) ==> r.history == RecordHistory(s.history, s.state, text)
  {
    if !isPreset && !HasErrors(s.errors) then s.(history := RecordHistory(s.history, s.state, text))
    else s
  }

  /** The copy button: the record's own command, not a preset. */
  function CopyCommand(s: Session): (r: Session)
    ensures r.state == s.state && r.errors == s.errors
    ensures HasErrors(s.errors) ==> r.history == s.history
    ensures !HasErrors(s.errors) ==> |r.history| >= 1 && Encode(r.history[0]) == Encode(s.state)
  {
    CopyToClipboard(s, Encode(s.state), false)
  }

  /** A restore button: the logged record is loaded and every error entry is dropped. */
  function Restore(s: Session, i: nat): (r: Session)
    requires i < |s.history|
    ensures r.state == s.history[i] && r.history == s.history
    ensures r.errors == map[]
    ensures !HasErrors(r.errors) && ErrorsTrackState(r)
  {
    Session(s.history[i], map[], s.history)
  }

  /** The clear button: the log is emptied; record and error entries stay. */
  function ClearHistory(s: Session): (r: Session)
    ensures r.history == [] && r.state == s.state && r.errors == s.errors
  {
    s.(history := [])
  }

  /** The initial coordinates pass the coordinate check. */
  lemma InitialCoordinatesValid(f: FieldName)
    requires f.X? || f.Y? || f.Z?
    ensures Validate(f.Key(), Get(InitialState, f)) == NoError
  {
    var v := Get(InitialState, f);
    if f.X? {
      CoordinateTilde("x", v);
    } else if f.Y? {
      CoordinateTildeOne("y", v);
    } else {
      CoordinateTilde("z", v);
    }
  }

  /** The initial deltas pass the delta check. */
  lemma InitialDeltasValid(f: FieldName)
    requires f.Dx? || f.Dy? || f.Dz?
    ensures Validate(f.Key(), Get(InitialState, f)) == NoError
  {
    DeltaZero(f.Key(), Get(InitialState, f));
  }

  /** The initial speed and count pass their checks. */
  lemma InitialSpeedCountValid(f: FieldName)
    requires f.Speed? || f.Count?
    ensures Validate(f.Key(), Get(InitialState, f)) == NoError
  {
    var v := Get(InitialState, f);
    if f.Speed? {
      SpeedPointOne(v);
    } else {
      CountTen(v);
    }
  }

  /** The form opens valid: every input's initial text passes its own check. */
  lemma InitialStateValid(f: FieldName)
    ensures Validate(f.Key(), Get(InitialState, f)) == NoError
  {
    if f.X? || f.Y? || f.Z? {
      InitialCoordinatesValid(f);
    } else if f.Dx? || f.Dy? || f.Dz? {
      InitialDeltasValid(f);
    } else if f.Speed? || f.Count? {
      InitialSpeedCountValid(f);
    } else {
      ValidateUntyped(f.Key(), Get(InitialState, f));
    }
  }

  /** The session invariant and the open gate hold when the form opens, and every handler keeps the
      invariant. */
  lemma SessionInvariant(s: Session, f: FieldName, value: string, text: string, isPreset: bool)
    ensures ErrorsTrackState(InitialSession) && !HasErrors(InitialSession.errors)
    ensures ErrorsTrackState(s) ==> ErrorsTrackState(HandleInputChange(s, f, value))
    ensures ErrorsTrackState(s) ==> ErrorsTrackState(CopyToClipboard(s, text, isPreset))
    ensures ErrorsTrackState(s) ==> ErrorsTrackState(ClearHistory(s))
  {
    if ErrorsTrackState(s) {
      HandleInputChangeTracks(s, f, value);
    }
  }

  /** Every one of the ten inputs of `c` passes its own check. */
  predicate AllValid(c: CommandState) {
    forall f: FieldName :: Validate(f.Key(), Get(c, f)) == NoError
  }

  /** The soundness invariant: the entries track the record, every input without an entry passes its
      check, and every logged record passes on all ten inputs. */
  predicate Sound(s: Session) {
    && ErrorsTrackState(s)
    && (forall f: FieldName | f.Key() !in s.errors :: Validate(f.Key(), Get(s.state, f)) == NoError)
    && (forall i | 0 <= i < |s.history| :: AllValid(s.history[i]))
  }

  /** In a sound session an open copy gate means the whole record is valid, not just its edited inputs. */
  lemma GateMeansValid(s: Session)
    requires Sound(s) && !HasErrors(s.errors)
    ensures AllValid(s.state)
  {
    forall f: FieldName
      ensures Validate(f.Key(), Get(s.state, f)) == NoError
    {
      if f.Key() in s.errors {
        FieldNamedKey(f);
        IsErrorExactlyNonEmpty(s.errors[f.Key()]);
      }
    }
  }

  /** The form opens sound. */
  lemma SoundInitial()
    ensures Sound(InitialSession)
  {
    forall f: FieldName
      ensures Validate(f.Key(), Get(InitialState, f)) == NoError
    {
      InitialStateValid(f);
    }
  }

  /** Editing keeps the session sound: an input left without an entry is not the edited one, so it
      keeps its text. */
  lemma SoundHandleInputChange(s: Session, f: FieldName, value: string)
    requires Sound(s)
    ensures Sound(HandleInputChange(s, f, value))
  {
    var r := HandleInputChange(s, f, value);
    HandleInputChangeTracks(s, f, value);
    forall g: FieldName | g.Key() !in r.errors
      ensures Validate(g.Key(), Get(r.state, g)) == NoError
    {
      KeysDistinct(f, g);
      assert g != f && g.Key() !in s.errors;
    }
  }

  /** Copying keeps the session sound: a record is logged only through the open gate, so it is valid. */
  lemma SoundCopyToClipboard(s: Session, text: string, isPreset: bool)
    requires Sound(s)
    ensures Sound(CopyToClipboard(s, text, isPreset))
  {
    if !isPreset && !HasErrors(s.errors) {
      GateMeansValid(s);
      var h := RecordHistory(s.history, s.state, text);
      forall i | 0 <= i < |h|
        ensures AllValid(h[i])
      {
        if h != s.history && i > 0 {
          assert h[i] == h[1..][i - 1] == s.history[i - 1];
        }
      }
    }
  }

  /** Restoring keeps the session sound: the loaded record was valid when it was logged, so the empty
      error map is the verdict on every input. */
  lemma SoundRestore(s: Session, i: nat)
    requires Sound(s) && i < |s.history|
    ensures Sound(Restore(s, i))
  {
    assert AllValid(s.history[i]);
  }

  /** Clearing keeps the session sound. */
  lemma SoundClearHistory(s: Session)
    requires Sound(s)
    ensures Sound(ClearHistory(s))
  {
  }

  /** Why restore need not re-validate: in a sound session the restored record passes every check,
      so dropping all error entries loses no error. */
  lemma RestoreNeedsNoValidation(s: Session, i: nat)
    requires Sound(s) && i < |s.history|
    ensures AllValid(Restore(s, i).state) && !HasErrors(Restore(s, i).errors)
  {
    assert AllValid(s.history[i]);
  }

  /** Copying twice in a row logs the command at most once. */
  lemma CopyCommandIdempotent(s: Session)
    ensures CopyCommand(CopyCommand(s)) == CopyCommand(s)
  {
  }

  /** Copying the same command twice into an empty log leaves one entry. */
  lemma SameCommandTwice(s: Session)
    requires s.history == [] && !HasErrors(s.errors)
    ensures CopyCommand(CopyCommand(s)).history == [s.state]
  {
    CopyCommandIdempotent(s);
  }

  /** Copying right after restoring the newest entry leaves the log as it was. */
  lemma RestoreNewestThenCopy(s: Session)
    requires |s.history| > 0
    ensures CopyCommand(Restore(s, 0)).history == s.history
  {
  }

  /** Copying right after a clear logs exactly the record being edited, unless an entry holds an error. */
  lemma CopyAfterClear(s: Session)
    ensures !HasErrors(s.errors) ==> CopyCommand(ClearHistory(s)).history == [s.state]
    ensures HasErrors(s.errors) ==> CopyCommand(ClearHistory(s)).history == []
  {
  }

  /** A preset copy never touches the log. */
  lemma PresetCopyKeepsHistory(s: Session, text: string)
    ensures CopyToClipboard(s, text, true) == s
  {
  }

  /** The log never grows past its capacity, whatever is copied. */
  lemma HistoryBounded(s: Session, text: string, isPreset: bool)
    requires |s.history| <= Capacity
    ensures |CopyToClipboard(s, text, isPreset).history| <= Capacity
  {
  }

  /** The log after copying each record of `ss` in turn, each with its own command. */
  function RecordEach(h: seq<CommandState>, ss: seq<CommandState>): seq<CommandState>
    decreases |ss|
  {
    if ss == [] then h else RecordEach(RecordHistory(h, ss[0], Encode(ss[0])), ss[1..])
  }

  function Reverse<T>(xs: seq<T>): (r: seq<T>)
    ensures |r| == |xs|
    ensures forall i :: 0 <= i < |xs| ==> r[i] == xs[|xs| - 1 - i]
  {
    if xs == [] then [] else Reverse(xs[1..]) + [xs[0]]
  }

  /** Consecutive records whose commands differ, the first differing from the newest logged one. */
  predicate AdjacentDistinct(h: seq<CommandState>, ss: seq<CommandState>) {
    (|h| > 0 && |ss| > 0 ==> Encode(h[0]) != Encode(ss[0]))
    && forall i :: 0 < i < |ss| ==> Encode(ss[i]) != Encode(ss[i - 1])
  }

  /** Truncating before or after putting entries in front gives the same first `n`. */
  lemma TakeOfTake<T>(a: seq<T>, b: seq<T>, n: nat)
    ensures Take(a + Take(b, n), n) == Take(a + b, n)
  {
    if |b| > n {
      assert (a + b[..n])[..n] == (a + b)[..n];
    }
  }

  /** A copy whose command differs from the newest logged one puts the record in front. */
  lemma RecordFresh(h: seq<CommandState>, c: CommandState)
    requires |h| == 0 || Encode(h[0]) != Encode(c)
    ensures RecordHistory(h, c, Encode(c)) == Take([c] + h, Capacity)
  {
  }

  /** After logging the first of a run of distinct copies, the rest of the run is still distinct
      from the log. */
  lemma AdjacentDistinctTail(h: seq<CommandState>, ss: seq<CommandState>)
    requires |ss| > 0 && AdjacentDistinct(h, ss)
    ensures AdjacentDistinct(Take([ss[0]] + h, Capacity), ss[1..])
  {
    assert Take([ss[0]] + h, Capacity)[0] == ss[0];
  }

  /** Reversing a sequence puts its head last. */
  lemma ReverseHeadLast<T>(xs: seq<T>)
    requires |xs| > 0
    ensures Reverse(xs) == Reverse(xs[1..]) + [xs[0]]
  {
  }

  lemma ConsRegroup<T>(r: seq<T>, x: T, h: seq<T>)
    ensures r + ([x] + h) == (r + [x]) + h
  {
  }

  lemma ReverseCons<T>(xs: seq<T>, h: seq<T>)
    requires |xs| > 0
    ensures Reverse(xs[1..]) + ([xs[0]] + h) == Reverse(xs) + h
  {
    ReverseHeadLast(xs);
    ConsRegroup(Reverse(xs[1..]), xs[0], h);
  }

  /** A run of copies whose consecutive commands all differ logs them all, newest first, and keeps
      only the `Capacity` most recent of them and of the old log. */
  lemma {:induction false} RecordEachDistinct(h: seq<CommandState>, ss: seq<CommandState>)
    requires |h| <= Capacity && AdjacentDistinct(h, ss)
    ensures RecordEach(h, ss) == Take(Reverse(ss) + h, Capacity)
    decreases |ss|
  {
    if ss != [] {
      var h' := Take([ss[0]] + h, Capacity);
      RecordFresh(h, ss[0]);
      AdjacentDistinctTail(h, ss);
      RecordEachDistinct(h', ss[1..]);
      TakeOfTake(Reverse(ss[1..]), [ss[0]] + h, Capacity);
      ReverseCons(ss, h);
    }
  }

  /** Eleven different commands copied one after another into an empty log: the log is full and the
      first of them has been dropped. */
  lemma OldestDropped(ss: seq<CommandState>)
    requires |ss| == Capacity + 1 && AdjacentDistinct([], ss)
    ensures RecordEach([], ss) == Reverse(ss[1..])
    ensures |RecordEach([], ss)| == Capacity
  {
    RecordEachDistinct([], ss);
    assert Reverse(ss) + [] == Reverse(ss);
    assert Reverse(ss)[..Capacity] == Reverse(ss[1..]);
  }

  /** When no field after the particle holds a space, a copy is skipped as a duplicate only when the
      record being edited is the newest logged one. */
  lemma DuplicateMeansSameRecord(s: Session)
    requires !HasErrors(s.errors) && |s.history| > 0
    requires SpaceFreeScalars(s.state) && SpaceFreeScalars(s.history[0])
    ensures CopyCommand(s).history == s.history <==> s.history[0] == s.state
  {
    if CopyCommand(s).history == s.history {
      if Encode(s.history[0]) == Encode(s.state) {
        EncodeInjective(s.history[0], s.state);
      }
    }
  }

  /** Because duplicates are judged by text, a different record whose command reads the same as the
      newest entry's is not logged. */
  lemma DuplicateTextSkipsDifferentRecord()
    ensures var logged := CommandState("dust 1", "2", "~", "~", "0", "0", "0", "0", "1", "normal");
            var edited := CommandState("dust", "1 2", "~", "~", "0", "0", "0", "0", "1", "normal");
            var s := Session(edited, map[], [logged]);
            edited != logged && CopyCommand(s).history == [logged]
  {
    EncodeCollision();
  }
}

=== FILE: commands.dfy ===
/**
 * The command builder's record and its text form. Every field is the raw text
 * of its input box; nothing is parsed when it is stored.
 */
module Commands {
  import opened Options
  import opened Text

  /** The ten fields of a `/particle` command, in command order. */
  datatype CommandState = CommandState(
    particle: string,
    x: string, y: string, z: string,
    dx: string, dy: string, dz: string,
    speed: string, count: string,
    mode: string)

  /** The form's inputs, one per field. */
  datatype FieldName = Particle | X | Y | Z | Dx | Dy | Dz | Speed | Count | Mode {

    /** The input's `name`, which is both the record key and the key of its error entry. */
    function Key(): string {
      match this
      case Particle => "particle"
      case X => "x"
      case Y => "y"
      case Z => "z"
      case Dx => "dx"
      case Dy => "dy"
      case Dz => "dz"
      case Speed => "speed"
      case Count => "count"
      case Mode => "mode"
    }
  }

  /** Different inputs have different names, so their error entries never collide. */
  lemma KeysDistinct(f: FieldName, g: FieldName)
    ensures f.Key() == g.Key() ==> f == g
  {
  }

  /** The input a `name` belongs to, if any: the inverse of `Key`. */
  function FieldNamed(name: string): (r: Option<FieldName>)
    ensures r.Some? ==> r.value.Key() == name
    ensures r.None? ==> forall f: FieldName :: f.Key() != name
  {
    match name
    case "particle" => Some(Particle)
    case "x" => Some(X)
    case "y" => Some(Y)
    case "z" => Some(Z)
    case "dx" => Some(Dx)
    case "dy" => Some(Dy)
    case "dz" => Some(Dz)
    case "speed" => Some(Speed)
    case "count" => Some(Count)
    case "mode" => Some(Mode)
    case _ => None
  }

  /** Looking up an input's own name finds that input. */
  lemma FieldNamedKey(f: FieldName)
    ensures FieldNamed(f.Key()) == Some(f)
  {
  }

  /** `state[name]` */
  function Get(s: CommandState, f: FieldName): string {
    match f
    case Particle => s.particle
    case X => s.x
    case Y => s.y
    case Z => s.z
    case Dx => s.dx
    case Dy => s.dy
    case Dz => s.dz
    case Speed => s.speed
    case Count => s.count
    case Mode => s.mode
  }

  /** `{ ...state, [name]: value }`: the named field takes the value and every other field keeps its own. */
  function With(s: CommandState, f: FieldName, value: string): (r: CommandState)
    ensures Get(r, f) == value
    ensures forall g :: g != f ==> Get(r, g) == Get(s, g)
  {
    match f
    case Particle => s.(particle := value)
    case X => s.(x := value)
    case Y => s.(y := value)
    case Z => s.(z := value)
    case Dx => s.(dx := value)
    case Dy => s.(dy := value)
    case Dz => s.(dz := value)
    case Speed => s.(speed := value)
    case Count => s.(count := value)
    case Mode => s.(mode := value)
  }

  /** Two records that agree on every field are the same record. */
  lemma FieldsDetermineState(a: CommandState, b: CommandState)
    requires forall f :: Get(a, f) == Get(b, f)
    ensures a == b
  {
    assert Get(a, Particle) == Get(b, Particle);
    assert Get(a, X) == Get(b, X) && Get(a, Y) == Get(b, Y) && Get(a, Z) == Get(b, Z);
    assert Get(a, Dx) == Get(b, Dx) && Get(a, Dy) == Get(b, Dy) && Get(a, Dz) == Get(b, Dz);
    assert Get(a, Speed) == Get(b, Speed) && Get(a, Count) == Get(b, Count) && Get(a, Mode) == Get(b, Mode);
  }

  /** The field update is pinned down by its contract: any record that holds `value` in `f` and agrees
      with `s` everywhere else is `With(s, f, value)`. */
  lemma WithDetermined(s: CommandState, f: FieldName, value: string, r: CommandState)
    requires Get(r, f) == value
    requires forall g :: g != f ==> Get(r, g) == Get(s, g)
    ensures r == With(s, f, value)
  {
    FieldsDetermineState(r, With(s, f, value));
  }

  /** The command keyword, the first token of every generated command. */
  const Keyword: string := "/particle"

  /** `generateCommandStr`: the keyword and the ten fields separated by single spaces, valid or not. */
  function Encode(s: CommandState): string {
    Keyword + " " + s.particle + " " + s.x + " " + s.y + " " + s.z + " " + s.dx + " " + s.dy + " " + s.dz
      + " " + s.speed + " " + s.count + " " + s.mode
  }

  /** The nine fields after the particle, in command order. */
  function Scalars(s: CommandState): seq<string> {
    [s.x, s.y, s.z, s.dx, s.dy, s.dz, s.speed, s.count, s.mode]
  }

  /** None of the nine fields after the particle holds a space. */
  predicate SpaceFreeScalars(s: CommandState) {
    forall k :: 0 <= k < |Scalars(s)| ==> ' ' !in Scalars(s)[k]
  }

  /** Moving the boundary of a space-separated text one piece to the right. */
  lemma Regroup(p: string, t: string, rest: string)
    ensures p + " " + t + " " + rest == p + " " + (t + " " + rest)
  {
  }

  /** The fields after the particle are written as their space-separated join. */
  lemma EncodeShape(s: CommandState)
    ensures Encode(s) == Keyword + " " + (s.particle + " " + Join(Scalars(s)))
  {
    var p0 := Keyword + " " + s.particle;
    var p1 := p0 + " " + s.x;
    var p2 := p1 + " " + s.y;
    var p3 := p2 + " " + s.z;
    var p4 := p3 + " " + s.dx;
    var p5 := p4 + " " + s.dy;
    var p6 := p5 + " " + s.dz;
    var p7 := p6 + " " + s.speed;
    var p8 := p7 + " " + s.count;
    var j8 := [s.mode];
    var j7 := [s.count] + j8;
    var j6 := [s.speed] + j7;
    var j5 := [s.dz] + j6;
    var j4 := [s.dy] + j5;
    var j3 := [s.dx] + j4;
    var j2 := [s.z] + j3;
    var j1 := [s.y] + j2;
    var j0 := [s.x] + j1;
    assert Encode(s) == p8 + " " + Join(j8);
    assert p8 + " " + Join(j8) == p7 + " " + Join(j7) by {
      JoinCons(s.count, j8);
      Regroup(p7, s.count, Join(j8));
    }
    assert p7 + " " + Join(j7) == p6 + " " + Join(j6) by {
      JoinCons(s.speed, j7);
      Regroup(p6, s.speed, Join(j7));
    }
    assert p6 + " " + Join(j6) == p5 + " " + Join(j5) by {
      JoinCons(s.dz, j6);
      Regroup(p5, s.dz, Join(j6));
    }
    assert p5 + " " + Join(j5) == p4 + " " + Join(j4) by {
      JoinCons(s.dy, j5);
      Regroup(p4, s.dy, Join(j5));
    }
    assert p4 + " " + Join(j4) == p3 + " " + Join(j3) by {
      JoinCons(s.dx, j4);
      Regroup(p3, s.dx, Join(j4));
    }
    assert p3 + " " + Join(j3) == p2 + " " + Join(j2) by {
      JoinCons(s.z, j3);
      Regroup(p2, s.z, Join(j3));
    }
    assert p2 + " " + Join(j2) == p1 + " " + Join(j1) by {
      JoinCons(s.y, j2);
      Regroup(p1, s.y, Join(j2));
    }
    assert p1 + " " + Join(j1) == p0 + " " + Join(j0) by {
      JoinCons(s.x, j1);
      Regroup(p0, s.x, Join(j1));
    }
    Regroup(Keyword, s.particle, Join(j0));
    assert j0 == Scalars(s);
  }

  /** Split on spaces, a generated command is the keyword, the particle's own pieces, then the nine
      fields after it, one piece each, provided none of those nine holds a space. */
  lemma EncodeTokens(s: CommandState)
    requires SpaceFreeScalars(s)
    ensures Split(Encode(s)) == [Keyword] + Split(s.particle) + Scalars(s)
  {
    var j := Join(Scalars(s));
    EncodeShape(s);
    SplitCons(Keyword, s.particle + " " + j);
    SplitAtSpace(s.particle, j);
    SplitJoin(Scalars(s));
    assert [Keyword] + (Split(s.particle) + Scalars(s)) == [Keyword] + Split(s.particle) + Scalars(s);
  }

  /** Records whose nine trailing fields hold no space generate the same command only if they are equal. */
  lemma EncodeInjective(a: CommandState, b: CommandState)
    requires SpaceFreeScalars(a) && SpaceFreeScalars(b)
    requires Encode(a) == Encode(b)
    ensures a == b
  {
    EncodeTokens(a);
    EncodeTokens(b);
    var ta, tb := Split(a.particle), Split(b.particle);
    assert |ta| == |tb|;
    assert ta == ([Keyword] + ta + Scalars(a))[1..1 + |ta|];
    assert tb == ([Keyword] + tb + Scalars(b))[1..1 + |tb|];
    JoinSplit(a.particle);
    JoinSplit(b.particle);
    assert Scalars(a) == ([Keyword] + ta + Scalars(a))[1 + |ta|..];
    assert Scalars(b) == ([Keyword] + tb + Scalars(b))[1 + |tb|..];
  }

  /** A space inside a trailing field lets two different records generate the same command. */
  lemma EncodeCollision()
    ensures var a := CommandState("dust 1", "2", "~", "~", "0", "0", "0", "0", "1", "normal");
            var b := CommandState("dust", "1 2", "~", "~", "0", "0", "0", "0", "1", "normal");
            a != b && Encode(a) == Encode(b)
  {
    var a := CommandState("dust 1", "2", "~", "~", "0", "0", "0", "0", "1", "normal");
    var b := CommandState("dust", "1 2", "~", "~", "0", "0", "0", "0", "1", "normal");
    assert a.particle != b.particle by {
      assert |a.particle| != |b.particle|;
    }
    assert Encode(a) == Encode(b);
  }
}

=== FILE: coordinates.dfy ===
/**
 * The coordinate rule of the field validator, the anchored regular expression
 * `[~^]?(-?\d*(\.\d+)?)?`: an optional `~` (relative) or `^` (local) marker,
 * an optional minus sign, any number of digits, and an optional fraction of
 * a dot followed by at least one digit. Every part is optional, so a bare
 * marker and the empty string both match.
 */
module Coordinates {
  import opened Options
  import opened Text

  predicate IsMarker(c: char) {
    c == '~' || c == '^'
  }

  /** `\d*(\.\d+)?` */
  predicate IsDecimal(s: string) {
    || |s| == 0
    || (IsDigit(s[0]) && IsDecimal(s[1..]))
    || (s[0] == '.' && |s| >= 2 && AllDigits(s[1..]))
  }

  /** `-?\d*(\.\d+)?` */
  predicate IsSignedDecimal(s: string) {
    if |s| > 0 && s[0] == '-' then IsDecimal(s[1..]) else IsDecimal(s)
  }

  /** `[~^]?(-?\d*(\.\d+)?)?`, matched against the whole string. */
  predicate IsCoordinate(s: string) {
    if |s| > 0 && IsMarker(s[0]) then IsSignedDecimal(s[1..]) else IsSignedDecimal(s)
  }

  /** The text of an optional marker: the marker, or nothing. */
  function MarkerText(marker: Option<char>): string {
    if marker.Some? then [marker.value] else ""
  }

  /** The text of an optional fraction: a dot and its digits, or nothing. */
  function FractionText(fraction: Option<string>): string {
    if fraction.Some? then "." + fraction.value else ""
  }

  predicate ValidFraction(fraction: Option<string>) {
    fraction.Some? ==> |fraction.value| >= 1 && AllDigits(fraction.value)
  }

  /** The parts of a coordinate token, each optional. */
  datatype CoordToken = CoordToken(marker: Option<char>, negative: bool, whole: string, fraction: Option<string>) {

    predicate Valid() {
      && (marker.Some? ==> IsMarker(marker.value))
      && AllDigits(whole)
      && ValidFraction(fraction)
    }

    function Render(): string {
      MarkerText(marker) + (SignText(negative) + (whole + FractionText(fraction)))
    }
  }
  /** The language of the expression: the strings some valid token renders to. */
  ghost predicate InCoordinateLanguage(s: string) {
    exists c: CoordToken :: c.Valid() && c.Render() == s
  }

  /** A run of digits, then either nothing or a dot and at least one digit. */
  lemma {:induction false} DecimalShape(s: string)
    ensures IsDecimal(s) <==>
      var rest := s[DigitRun(s)..];
      rest == [] || (rest[0] == '.' && |rest| >= 2 && AllDigits(rest[1..]))
  {
    if |s| > 0 && IsDigit(s[0]) {
      DecimalShape(s[1..]);
      assert s[DigitRun(s)..] == s[1..][DigitRun(s[1..])..];
    }
  }

  /** Splits `\d*(\.\d+)?` into its digit run and optional fraction. */
  function ParseDecimal(s: string): (r: Option<(string, Option<string>)>)
    ensures r.Some? <==> IsDecimal(s)
    ensures r.Some? ==> AllDigits(r.value.0) && ValidFraction(r.value.1) && r.value.0 + FractionText(r.value.1) == s
  {
    var n := DigitRun(s);
    var rest := s[n..];
    DecimalShape(s);
    assert s == s[..n] + rest;
    if rest == [] then Some((s[..n], None))
    else if rest[0] == '.' && |rest| >= 2 && AllDigits(rest[1..]) then
      assert rest == "." + rest[1..];
      Some((s[..n], Some(rest[1..])))
    else None
  }

  /** The digit run stops where the fraction starts, so the decimal parse is unique. */
  lemma ParseDecimalRender(whole: string, fraction: Option<string>)
    requires AllDigits(whole) && ValidFraction(fraction)
    ensures ParseDecimal(whole + FractionText(fraction)) == Some((whole, fraction))
  {
    var frac := FractionText(fraction);
    var s := whole + frac;
    DigitRunOfDigits(whole, frac);
    assert s[..|whole|] == whole;
    assert s[|whole|..] == frac;
    if fraction.Some? {
      assert frac[1..] == fraction.value;
    }
  }

  /** Splits `-?\d*(\.\d+)?` into its sign, digit run and optional fraction. */
  function ParseSignedDecimal(s: string): (r: Option<(bool, string, Option<string>)>)
    ensures r.Some? <==> IsSignedDecimal(s)
    ensures r.Some? ==> AllDigits(r.value.1) && ValidFraction(r.value.2)
                        && SignText(r.value.0) + (r.value.1 + FractionText(r.value.2)) == s
  {
    var negative := |s| > 0 && s[0] == '-';
    var rest := if negative then s[1..] else s;
    assert s == SignText(negative) + rest;
    match ParseDecimal(rest)
    case None => None
    case Some((whole, fraction)) => Some((negative, whole, fraction))
  }

  /** A decimal rendered after an optional minus sign parses back to its parts. */
  lemma ParseSignedDecimalRender(negative: bool, whole: string, fraction: Option<string>)
    requires AllDigits(whole) && ValidFraction(fraction)
    ensures ParseSignedDecimal(SignText(negative) + (whole + FractionText(fraction))) == Some((negative, whole, fraction))
  {
    var s2 := whole + FractionText(fraction);
    ParseDecimalRender(whole, fraction);
    if negative {
      var s1 := SignText(negative) + s2;
      assert s1[0] == '-' && s1[1..] == s2;
    } else {
      assert SignText(negative) + s2 == s2;
      assert s2 != [] ==> s2[0] == '.' || IsDigit(s2[0]);
    }
  }

  /** The text of a signed decimal starts with a sign, a digit or a dot, never with a marker. */
  lemma SignedDecimalStart(negative: bool, whole: string, fraction: Option<string>)
    requires AllDigits(whole)
    ensures var s := SignText(negative) + (whole + FractionText(fraction));
            s == [] || !IsMarker(s[0])
  {
    var s2 := whole + FractionText(fraction);
    assert s2 != [] ==> s2[0] == '.' || IsDigit(s2[0]);
  }

  /** Splits a string into the parts of a coordinate token, if it is one. */
  function ParseCoordinate(s: string): (r: Option<CoordToken>)
    ensures r.Some? <==> IsCoordinate(s)
    ensures r.Some? ==> r.value.Valid() && r.value.Render() == s
  {
    var marker := if |s| > 0 && IsMarker(s[0]) then Some(s[0]) else None;
    var rest := if marker.Some? then s[1..] else s;
    assert s == MarkerText(marker) + rest;
    match ParseSignedDecimal(rest)
    case None => None
    case Some((negative, whole, fraction)) => Some(CoordToken(marker, negative, whole, fraction))
  }

  /** An optional marker in front of text that does not start with one is read off as that marker. */
  lemma ParseAfterMarker(marker: Option<char>, rest: string)
    requires marker.Some? ==> IsMarker(marker.value)
    requires rest == [] || !IsMarker(rest[0])
    ensures ParseSignedDecimal(rest).Some? ==>
              var v := ParseSignedDecimal(rest).value;
              ParseCoordinate(MarkerText(marker) + rest) == Some(CoordToken(marker, v.0, v.1, v.2))
  {
    var s := MarkerText(marker) + rest;
    if marker.Some? {
      assert s[0] == marker.value && s[1..] == rest;
    } else {
      assert s == rest;
    }
  }

  /** Parsing a rendered token recovers it: the expression reads every match one way only. */
  lemma ParseRender(c: CoordToken)
    requires c.Valid()
    ensures ParseCoordinate(c.Render()) == Some(c)
  {
    ParseSignedDecimalRender(c.negative, c.whole, c.fraction);
    SignedDecimalStart(c.negative, c.whole, c.fraction);
    ParseAfterMarker(c.marker, SignText(c.negative) + (c.whole + FractionText(c.fraction)));
  }

  /** The recursive predicate and the token grammar describe the same strings. */
  lemma CoordinateLanguage(s: string)
    ensures IsCoordinate(s) <==> InCoordinateLanguage(s)
  {
    if IsCoordinate(s) {
      var c := ParseCoordinate(s).value;
      assert c.Valid() && c.Render() == s;
    }
    if InCoordinateLanguage(s) {
      var c: CoordToken :| c.Valid() && c.Render() == s;
      ParseRender(c);
    }
  }

  /** A valid token's text is a coordinate. */
  lemma RenderIsCoordinate(c: CoordToken)
    requires c.Valid()
    ensures IsCoordinate(c.Render())
  {
    ParseRender(c);
  }

  lemma TildeIsCoordinate()
    ensures IsCoordinate("~")
  {
    RenderIsCoordinate(CoordToken(Some('~'), false, "", None));
    assert CoordToken(Some('~'), false, "", None).Render() == "~";
  }

  lemma CaretIsCoordinate()
    ensures IsCoordinate("^")
  {
    RenderIsCoordinate(CoordToken(Some('^'), false, "", None));
    assert CoordToken(Some('^'), false, "", None).Render() == "^";
  }

  lemma TildeMinusFiveIsCoordinate()
    ensures IsCoordinate("~-5")
  {
    RenderIsCoordinate(CoordToken(Some('~'), true, "5", None));
    assert CoordToken(Some('~'), true, "5", None).Render() == "~-5";
  }

  lemma TildeOneIsCoordinate()
    ensures IsCoordinate("~1")
  {
    RenderIsCoordinate(CoordToken(Some('~'), false, "1", None));
    assert CoordToken(Some('~'), false, "1", None).Render() == "~1";
  }

  lemma PointFiveIsCoordinate()
    ensures IsCoordinate(".5")
  {
    RenderIsCoordinate(CoordToken(None, false, "", Some("5")));
    assert CoordToken(None, false, "", Some("5")).Render() == ".5";
  }

  lemma NotCoordinates()
    ensures !IsCoordinate("~~") && !IsCoordinate("5.") && !IsCoordinate(" ~")
  {
    assert "~~"[1..] == "~";
    assert "5."[1..] == ".";
  }

  /** Markers alone, a marker with a signed offset and a bare fraction match; a doubled marker,
      a dot with no digits after it and a leading space do not. */
  lemma CoordinateExamples()
    ensures IsCoordinate("~") && IsCoordinate("^") && IsCoordinate("~-5") && IsCoordinate(".5")
    ensures !IsCoordinate("~~") && !IsCoordinate("5.") && !IsCoordinate(" ~")
  {
    TildeIsCoordinate();
    CaretIsCoordinate();
    TildeMinusFiveIsCoordinate();
    PointFiveIsCoordinate();
    NotCoordinates();
  }
}

=== FILE: numbers.dfy ===
/**
 * JavaScript's `Number(string)` conversion, the StringToNumber grammar of
 * ECMAScript: surrounding white space is ignored, a blank string is zero,
 * and the rest must be a signed decimal literal (with optional fraction and
 * exponent), `Infinity`, or an unsigned 0x / 0o / 0b integer literal;
 * anything else is NaN. Values are exact reals: rounding to a double is not
 * modelled.
 */
module Numbers {
  import opened Options
  import opened Text

  /** A JavaScript number as far as the validator can tell them apart. */
  datatype Number = NaN | Finite(value: real) | PosInfinity | NegInfinity {

    /** `isNaN` */
    predicate IsNaN() {
      NaN?
    }

    /** `Number.isInteger`: finite with no fractional part. */
    predicate IsInteger() {
      Finite? && value.Floor as real == value
    }

    /** The comparison `x < 0`, which is false for NaN. */
    predicate LessThanZero() {
      (Finite? && value < 0.0) || NegInfinity?
    }

    /** Unary minus. */
    function Negate(): (r: Number)
      ensures IsNaN() <==> r.IsNaN()
      ensures Finite? ==> r == Finite(-value)
      ensures PosInfinity? <==> r.NegInfinity?
    {
      match this
      case NaN => NaN
      case Finite(v) => Finite(-v)
      case PosInfinity => NegInfinity
      case NegInfinity => PosInfinity
    }
  }

  /** The value of a digit character in bases up to 16, or -1 for any other character. */
  function DigitValue(c: char): (d: int)
    ensures -1 <= d < 16
    ensures IsDigit(c) ==> d == c as int - '0' as int
  {
    if '0' <= c <= '9' then c as int - '0' as int
    else if 'a' <= c <= 'f' then c as int - 'a' as int + 10
    else if 'A' <= c <= 'F' then c as int - 'A' as int + 10
    else -1
  }

  predicate AllRadixDigits(d: string, radix: nat) {
    forall i :: 0 <= i < |d| ==> 0 <= DigitValue(d[i]) < radix
  }

  /** The positional value of a digit string, most significant digit first. */
  function RadixValue(d: string, radix: nat): (v: nat)
    requires AllRadixDigits(d, radix)
  {
    if |d| == 0 then 0
    else RadixValue(d[..|d| - 1], radix) * radix + DigitValue(d[|d| - 1])
  }

  function DecimalValue(d: string): nat
    requires AllDigits(d)
  {
    RadixValue(d, 10)
  }

  /** Ten to an integer power, as a real. */
  function Pow10(e: int): (r: real)
    ensures r > 0.0
    decreases if e < 0 then -e else e
  {
    if e == 0 then 1.0
    else if e > 0 then 10.0 * Pow10(e - 1)
    else Pow10(e + 1) / 10.0
  }

  /** A mantissa times ten to an exponent. */
  function DecimalScaled(mantissa: nat, exponent: int): real {
    mantissa as real * Pow10(exponent)
  }

  /** `Number(s)`. */
  function ToNumber(s: string): Number {
    var t := Trim(s);
    if t == [] then Finite(0.0) else NumericLiteral(t)
  }

  /** A trimmed, non-empty numeric literal: a prefixed integer or a signed decimal. */
  function NumericLiteral(t: string): Number
    requires t != []
  {
    if |t| >= 2 && t[0] == '0' && (t[1] == 'x' || t[1] == 'X') then RadixLiteral(t[2..], 16)
    else if |t| >= 2 && t[0] == '0' && (t[1] == 'o' || t[1] == 'O') then RadixLiteral(t[2..], 8)
    else if |t| >= 2 && t[0] == '0' && (t[1] == 'b' || t[1] == 'B') then RadixLiteral(t[2..], 2)
    else if t[0] == '-' then UnsignedDecimal(t[1..]).Negate()
    else if t[0] == '+' then UnsignedDecimal(t[1..])
    else UnsignedDecimal(t)
  }

  /** The digits after a 0x / 0o / 0b prefix: at least one, all of the radix. */
  function RadixLiteral(d: string, radix: nat): Number {
    if |d| > 0 && AllRadixDigits(d, radix) then Finite(RadixValue(d, radix) as real) else NaN
  }

  /** `Infinity`, or digits with an optional fraction and exponent, at least one digit in all. */
  function UnsignedDecimal(u: string): Number {
    if u == "Infinity" then PosInfinity
    else
      var n := DigitRun(u);
      AfterWhole(u[..n], u[n..])
  }

  /** What follows the whole digits: an optional dot with fraction digits, then the exponent part. */
  function AfterWhole(whole: string, rest: string): Number
    requires AllDigits(whole)
  {
    if |rest| > 0 && rest[0] == '.' then
      var afterDot := rest[1..];
      var m := DigitRun(afterDot);
      Scaled(whole, afterDot[..m], afterDot[m..])
    else Scaled(whole, "", rest)
  }

  /** The mantissa digits scaled by the exponent, provided there is a digit and the exponent is well formed. */
  function Scaled(whole: string, fraction: string, tail: string): Number
    requires AllDigits(whole) && AllDigits(fraction)
  {
    if |whole| + |fraction| == 0 then NaN
    else
      assert AllDigits(whole + fraction) by {
        assert forall i :: 0 <= i < |whole + fraction| ==>
          (whole + fraction)[i] == if i < |whole| then whole[i] else fraction[i - |whole|];
      }
      match Exponent(tail)
      case None => NaN
      case Some(e) => Finite(DecimalScaled(DecimalValue(whole + fraction), e - |fraction|))
  }

  /** What may follow the mantissa: nothing, or e/E, an optional sign and at least one digit. */
  function Exponent(tail: string): Option<int> {
    if tail == [] then Some(0)
    else if tail[0] != 'e' && tail[0] != 'E' then None
    else
      var rest := tail[1..];
      var negative := |rest| > 0 && rest[0] == '-';
      var digits := if |rest| > 0 && (rest[0] == '-' || rest[0] == '+') then rest[1..] else rest;
      if |digits| > 0 && AllDigits(digits) then
        var magnitude: int := DecimalValue(digits);
        Some(if negative then -magnitude else magnitude)
      else None
  }

  function Signed(negative: bool, x: real): real {
    if negative then -x else x
  }

  /** Ten to a natural power, as an integer. */
  function IntPow10(k: nat): (p: nat)
    ensures p >= 1
  {
    if k == 0 then 1 else 10 * IntPow10(k - 1)
  }

  /** Dividing by ten `k` times is dividing by the integer power. */
  lemma {:induction false} Pow10Negative(k: nat)
    ensures Pow10(-(k as int)) == 1.0 / (IntPow10(k) as real)
  {
    if k > 0 {
      Pow10Negative(k - 1);
      assert Pow10(-(k as int)) == Pow10(-(k as int) + 1) / 10.0;
    }
  }

  /** A digit string has at least one digit before the first non-digit, so it is no `Infinity`. */
  lemma NotInfinity(u: string)
    requires u != [] && (IsDigit(u[0]) || u[0] == '.')
    ensures u != "Infinity"
  {
    assert "Infinity"[0] == 'I';
  }

  /** The whole digits of a literal end where the first non-digit starts. */
  lemma UnsignedSplitsAtWhole(whole: string, rest: string)
    requires AllDigits(whole) && |whole| + |rest| >= 1
    requires rest == [] || rest[0] == '.'
    ensures UnsignedDecimal(whole + rest) == AfterWhole(whole, rest)
  {
    var u := whole + rest;
    NotInfinity(u);
    DigitRunOfDigits(whole, rest);
    assert u[..|whole|] == whole;
    assert u[|whole|..] == rest;
  }

  /** With no exponent part the mantissa is scaled down by the fraction length only. */
  lemma ScaledWithoutExponent(whole: string, fraction: string)
    requires AllDigits(whole) && AllDigits(fraction) && |whole| + |fraction| >= 1
    ensures Scaled(whole, fraction, "") == Finite(DecimalScaled(DecimalValue(whole + fraction), -|fraction|))
  {
    assert Exponent("") == Some(0);
  }

  /** Digits with a dot and more digits after it (one digit at least in all): the digits read as one
      number, scaled down by the length of the fraction. */
  lemma UnsignedFractionValue(whole: string, fraction: string)
    requires AllDigits(whole) && AllDigits(fraction) && |whole| + |fraction| >= 1
    ensures UnsignedDecimal(whole + "." + fraction)
         == Finite(DecimalScaled(DecimalValue(whole + fraction), -|fraction|))
  {
    var rest := "." + fraction;
    assert whole + "." + fraction == whole + rest;
    UnsignedSplitsAtWhole(whole, rest);
    assert rest[1..] == fraction;
    DigitRunOfDigits(fraction, "");
    assert fraction + "" == fraction;
    assert fraction[..|fraction|] == fraction;
    assert fraction[|fraction|..] == "";
    assert AfterWhole(whole, rest) == Scaled(whole, fraction, "");
    ScaledWithoutExponent(whole, fraction);
  }

  /** A non-empty digit string is its own positional value. */
  lemma UnsignedIntegerValue(whole: string)
    requires AllDigits(whole) && |whole| >= 1
    ensures UnsignedDecimal(whole) == Finite(DecimalValue(whole) as real)
  {
    assert whole + "" == whole;
    UnsignedSplitsAtWhole(whole, "");
    assert AfterWhole(whole, "") == Scaled(whole, "", "");
    ScaledWithoutExponent(whole, "");
    assert whole + "" == whole;
    assert Pow10(0) == 1.0;
  }

  /** Without surrounding white space `Number` reads the literal directly. */
  lemma ToNumberOfTrimmed(t: string)
    requires t != [] && !IsJsSpace(t[0]) && !IsJsSpace(t[|t| - 1])
    ensures ToNumber(t) == NumericLiteral(t)
  {
    TrimOfTrimmed(t);
  }

  /** A literal starting with a digit or a dot and with no radix prefix is an unsigned decimal. */
  lemma UnprefixedLiteral(u: string)
    requires u != [] && (IsDigit(u[0]) || u[0] == '.')
    requires |u| >= 2 ==> IsDigit(u[1]) || u[1] == '.'
    ensures NumericLiteral(u) == UnsignedDecimal(u)
  {
    assert u[0] != '-' && u[0] != '+';
    if |u| >= 2 {
      assert u[1] != 'x' && u[1] != 'X' && u[1] != 'o' && u[1] != 'O' && u[1] != 'b' && u[1] != 'B';
    }
  }

  /** A literal starting with a minus sign is the negated unsigned decimal after it. */
  lemma NegatedLiteral(u: string)
    ensures NumericLiteral("-" + u) == UnsignedDecimal(u).Negate()
  {
    var t := "-" + u;
    assert t[0] == '-' && t[1..] == u;
  }

  /** A literal starting with a minus sign, or with a digit or dot and no radix prefix, is a decimal. */
  lemma SignedLiteral(negative: bool, u: string)
    requires u != [] && (IsDigit(u[0]) || u[0] == '.')
    requires |u| >= 2 ==> IsDigit(u[1]) || u[1] == '.'
    ensures NumericLiteral(SignText(negative) + u)
         == if negative then UnsignedDecimal(u).Negate() else UnsignedDecimal(u)
  {
    if negative {
      NegatedLiteral(u);
    } else {
      UnprefixedLiteral(u);
      assert SignText(negative) + u == u;
    }
  }

  /** `Number` of an optionally negated digit string is that integer. */
  lemma ToNumberOfInteger(negative: bool, digits: string)
    requires AllDigits(digits) && |digits| >= 1
    ensures !IsBlank(SignText(negative) + digits)
    ensures ToNumber(SignText(negative) + digits) == Finite(Signed(negative, DecimalValue(digits) as real))
  {
    var t := SignText(negative) + digits;
    assert t[|t| - 1] == digits[|digits| - 1];
    ToNumberOfTrimmed(t);
    SignedLiteral(negative, digits);
    UnsignedIntegerValue(digits);
  }

  /** `Number` of an optionally negated decimal with a fraction part is that value. */
  lemma ToNumberOfFraction(negative: bool, whole: string, fraction: string)
    requires AllDigits(whole) && AllDigits(fraction) && |fraction| >= 1
    ensures !IsBlank(SignText(negative) + (whole + "." + fraction))
    ensures ToNumber(SignText(negative) + (whole + "." + fraction))
         == Finite(Signed(negative, DecimalScaled(DecimalValue(whole + fraction), -|fraction|)))
  {
    var u := whole + "." + fraction;
    var t := SignText(negative) + u;
    assert t[|t| - 1] == fraction[|fraction| - 1];
    assert u[0] == '.' || IsDigit(u[0]);
    assert |u| >= 2 ==> u[1] == '.' || IsDigit(u[1]);
    ToNumberOfTrimmed(t);
    SignedLiteral(negative, u);
    UnsignedFractionValue(whole, fraction);
  }

  /** The last digit of a decimal string is its value modulo ten. */
  lemma LastDigit(d: string)
    requires AllDigits(d) && |d| >= 1
    ensures DecimalValue(d) % 10 == DigitValue(d[|d| - 1])
  {
    var prefix := d[..|d| - 1];
    assert AllDigits(prefix);
    var digit := DigitValue(d[|d| - 1]);
    assert DecimalValue(d) == DecimalValue(prefix) * 10 + digit;
  }

  /** An integer quotient of naturals multiplies back to the dividend. */
  lemma ExactQuotient(n: nat, p: nat, m: int)
    requires p >= 1 && m as real == n as real / p as real
    ensures m * p == n
  {
    assert m as real * p as real == n as real;
    assert (m * p) as real == m as real * p as real;
  }

  /** Scaling down by at least one power of ten gives an integer only for multiples of ten. */
  lemma ScaledDownInteger(n: nat, k: nat)
    requires k >= 1 && Finite(DecimalScaled(n, -(k as int))).IsInteger()
    ensures n % 10 == 0
  {
    var p := IntPow10(k);
    Pow10Negative(k);
    var x := DecimalScaled(n, -(k as int));
    assert x == n as real * (1.0 / p as real);
    assert x == n as real / p as real;
    var m := x.Floor;
    ExactQuotient(n, p, m);
    var c := m * IntPow10(k - 1);
    assert n == c * 10;
  }

  /** A decimal fraction whose last digit is not zero has a fractional part, whatever its sign. */
  lemma FractionNotInteger(negative: bool, whole: string, fraction: string)
    requires AllDigits(whole) && AllDigits(fraction) && |fraction| >= 1
    requires fraction[|fraction| - 1] != '0'
    ensures !Finite(Signed(negative, DecimalScaled(DecimalValue(whole + fraction), -|fraction|))).IsInteger()
  {
    var d := whole + fraction;
    assert AllDigits(d);
    assert d[|d| - 1] == fraction[|fraction| - 1];
    LastDigit(d);
    var n := DecimalValue(d);
    var x := DecimalScaled(n, -|fraction|);
    if Finite(Signed(negative, x)).IsInteger() {
      if negative {
        var m := (-x).Floor;
        assert (-m) as real == x;
        assert ((-m) as real).Floor == -m;
      }
      assert Finite(x).IsInteger();
      ScaledDownInteger(n, |fraction|);
    }
  }

  /** A literal whose first character cannot start any number form is NaN. */
  lemma NonNumericLiteral(t: string)
    requires t != [] && !IsDigit(t[0]) && t[0] !in {'.', '+', '-', 'I'}
    ensures NumericLiteral(t).IsNaN()
  {
    assert t != "Infinity" by {
      assert "Infinity"[0] == 'I';
    }
    assert DigitRun(t) == 0;
    assert t[..0] == "";
    assert AfterWhole("", t[0..]) == Scaled("", "", t);
  }

  /** Text that starts with a character that is neither white space nor the start of any number form
      converts to NaN, whatever follows it, trailing white space included. */
  lemma ToNumberOfNonNumeric(t: string)
    requires t != [] && !IsJsSpace(t[0])
    requires !IsDigit(t[0]) && t[0] !in {'.', '+', '-', 'I'}
    ensures ToNumber(t).IsNaN()
  {
    assert TrimStart(t) == t;
    var r := Trim(t);
    assert r == t[..|r|] && r != [] && r[0] == t[0];
    NonNumericLiteral(r);
  }

  /** A positive mantissa stays positive at any scale. */
  lemma DecimalScaledPositive(n: nat, e: int)
    ensures DecimalScaled(n, e) > 0.0 <==> n > 0
    ensures DecimalScaled(n, e) >= 0.0
  {
    var p := Pow10(e);
    assert DecimalScaled(n, e) == n as real * p;
    if n > 0 {
      assert n as real >= 1.0;
      assert n as real * p >= 1.0 * p;
    }
  }
}

=== FILE: options.dfy ===
/** The Some/None wrapper used wherever the builder's logic can come back empty-handed. */
module Options {

  datatype Option<+T> = None | Some(value: T)
}

=== FILE: palette.dfy ===
/**
 * `getColors`: the preview's choice of colours for a particle. Rules are tried
 * in order and the first that applies wins: coloured dust with its own
 * channels, then the colour-mode note and potion-swirl kinds (count `0`),
 * then an ordered table of name fragments, then white. Colours computed from
 * numbers are kept abstract: the model records which strings feed the
 * channels, not the arithmetic.
 */
module Palette {
  import opened Options
  import opened Text
  import opened Commands

  /** A colour as the preview draws it: a fixed CSS colour, or the `rgb(...)` colour computed from
      three numeric strings, with negative channels clamped to zero or not. */
  datatype Colour = Hex(code: string) | FromChannels(r: string, g: string, b: string, clampedAtZero: bool)

  /** The colours a particle may be drawn in; one is picked at random per spawned particle. */
  type Palette = seq<Colour>

  /** One entry of the lookup table: a fragment of the particle name and its palette. */
  datatype Rule = Rule(fragment: string, palette: Palette)

  const NotePalette: Palette := [Hex("#ff0000"), Hex("#00ff00"), Hex("#0000ff"), Hex("#ffff00")]

  const White: Palette := [Hex("#ffffff")]

  /** The lookup table, in the order its keys were written (the order `Object.keys` returns). */
  const StandardTable: seq<Rule> := [
    Rule("flame", [Hex("#ff4500"), Hex("#ffa500"), Hex("#cf3000")]),
    Rule("heart", [Hex("#ff0000"), Hex("#cc0000")]),
    Rule("crit", [Hex("#ffaa00"), Hex("#ffff55")]),
    Rule("smoke", [Hex("#555555"), Hex("#333333"), Hex("#777777")]),
    Rule("portal", [Hex("#d02090"), Hex("#800080")]),
    Rule("end_rod", [Hex("#ffffff"), Hex("#eeeeee")]),
    Rule("dragon_breath", [Hex("#d02090"), Hex("#e030a0")]),
    Rule("enchant", [Hex("#ffffff"), Hex("#aaaaaa")]),
    Rule("note", NotePalette),
    Rule("cloud", [Hex("#ffffff"), Hex("#eeeeee")]),
    Rule("witch", [Hex("#800080")]),
    Rule("soul", [Hex("#55ffff"), Hex("#00aaaa")])
  ]

  /** Every palette in a table has a colour to pick. */
  predicate NonEmptyPalettes(table: seq<Rule>) {
    forall k :: 0 <= k < |table| ==> |table[k].palette| >= 1
  }

  /** Entry `k` is the first whose fragment occurs in the particle name. */
  predicate IsFirstMatch(particle: string, table: seq<Rule>, k: int) {
    && 0 <= k < |table|
    && Contains(particle, table[k].fragment)
    && forall j :: 0 <= j < k ==> !Contains(particle, table[j].fragment)
  }

  /** At most one entry is the first match. */
  lemma FirstMatchUnique(particle: string, table: seq<Rule>, k: int, k': int)
    requires IsFirstMatch(particle, table, k) && IsFirstMatch(particle, table, k')
    ensures k == k'
  {
  }

  /** The `for (const key of Object.keys(map))` scan, from entry `i` on, the earlier entries having
      failed: the index of the first fragment contained in the name, or none. */
  function FindRule(particle: string, table: seq<Rule>, i: nat): (r: Option<nat>)
    requires i <= |table|
    requires forall j :: 0 <= j < i ==> !Contains(particle, table[j].fragment)
    ensures r.Some? ==> IsFirstMatch(particle, table, r.value)
    ensures r.None? <==> forall j :: 0 <= j < |table| ==> !Contains(particle, table[j].fragment)
    decreases |table| - i
  {
    if i == |table| then None
    else if Contains(particle, table[i].fragment) then Some(i)
    else FindRule(particle, table, i + 1)
  }

  /** `parts[k] || '0'`: an empty piece reads as zero. */
  function OrZero(part: string): string {
    if part == "" then "0" else part
  }

  /** The count strings that switch the note and potion-swirl kinds into colour mode. */
  predicate IsColourModeCount(count: string) {
    count == "0" || count == "0.0"
  }

  /** The coloured-dust rule: a name starting with `dust` that splits into at least four pieces. */
  predicate DustRuleApplies(particle: string) {
    StartsWith(particle, "dust") && |Split(particle)| >= 4
  }

  /** The colour-mode rule: a note or potion-swirl name with the zero count. */
  predicate ColourModeApplies(particle: string, count: string) {
    (Contains(particle, "entity_effect") || Contains(particle, "note")) && IsColourModeCount(count)
  }

  /** `getColors()` for the builder's current state. */
  function GetColors(s: CommandState): (r: Palette)
    ensures |r| >= 1
  {
    var parts := Split(s.particle);
    if DustRuleApplies(s.particle) then
      [FromChannels(OrZero(parts[1]), OrZero(parts[2]), OrZero(parts[3]), false)]
    else if ColourModeApplies(s.particle, s.count) then
      if Contains(s.particle, "note") then NotePalette
      else [FromChannels(s.dx, s.dy, s.dz, true)]
    else
      assert NonEmptyPalettes(StandardTable);
      match FindRule(s.particle, StandardTable, 0)
      case Some(k) => StandardTable[k].palette
      case None => White
  }

  /** Coloured dust is drawn in the one colour its second to fourth pieces give. */
  lemma GetColorsDust(s: CommandState)
    requires DustRuleApplies(s.particle)
    ensures var parts := Split(s.particle);
            GetColors(s) == [FromChannels(OrZero(parts[1]), OrZero(parts[2]), OrZero(parts[3]), false)]
  {
  }

  /** In colour mode a note gets the fixed four-colour pitch palette, even when the name also names
      the potion swirl, and the potion swirl alone gets one colour from the deltas, clamped at zero. */
  lemma GetColorsColourMode(s: CommandState)
    requires !DustRuleApplies(s.particle) && ColourModeApplies(s.particle, s.count)
    ensures Contains(s.particle, "note") ==> GetColors(s) == NotePalette && |GetColors(s)| == 4
    ensures !Contains(s.particle, "note") ==> GetColors(s) == [FromChannels(s.dx, s.dy, s.dz, true)]
  {
  }

  /** Past the first two rules the palette is that of the first table entry whose fragment occurs in
      the name, and white when none does. */
  lemma GetColorsFromTable(s: CommandState)
    requires !DustRuleApplies(s.particle) && !ColourModeApplies(s.particle, s.count)
    ensures forall k :: IsFirstMatch(s.particle, StandardTable, k) ==> GetColors(s) == StandardTable[k].palette
    ensures (forall k :: 0 <= k < |StandardTable| ==> !Contains(s.particle, StandardTable[k].fragment))
            ==> GetColors(s) == White
  {
    var r := FindRule(s.particle, StandardTable, 0);
    forall k | IsFirstMatch(s.particle, StandardTable, k)
      ensures GetColors(s) == StandardTable[k].palette
    {
      FirstMatchUnique(s.particle, StandardTable, k, r.value);
    }
  }

  /** The palette reads only the name, the deltas and the count; position, speed and mode play no part. */
  lemma GetColorsReads(s: CommandState, t: CommandState)
    requires s.particle == t.particle && s.count == t.count
    requires s.dx == t.dx && s.dy == t.dy && s.dz == t.dz
    ensures GetColors(s) == GetColors(t)
  {
  }

  /** The first table entry is the flame one. */
  lemma FlameEntry(p: string)
    requires Contains(p, "flame")
    ensures IsFirstMatch(p, StandardTable, 0)
  {
    assert StandardTable[0].fragment == "flame";
  }

  /** The smoke entry is the fourth, after flame, heart and crit. */
  lemma SmokeEntry(p: string)
    requires !Contains(p, "flame") && !Contains(p, "heart") && !Contains(p, "crit") && Contains(p, "smoke")
    ensures IsFirstMatch(p, StandardTable, 3)
  {
    assert StandardTable[0].fragment == "flame";
    assert StandardTable[1].fragment == "heart";
    assert StandardTable[2].fragment == "crit";
    assert StandardTable[3].fragment == "smoke";
  }

  /** A name holding none of the twelve fragments matches no table entry. */
  lemma NoEntry(p: string)
    requires !Contains(p, "flame") && !Contains(p, "heart") && !Contains(p, "crit") && !Contains(p, "smoke")
    requires !Contains(p, "portal") && !Contains(p, "end_rod") && !Contains(p, "dragon_breath")
    requires !Contains(p, "enchant") && !Contains(p, "note") && !Contains(p, "cloud")
    requires !Contains(p, "witch") && !Contains(p, "soul")
    ensures forall k :: 0 <= k < |StandardTable| ==> !Contains(p, StandardTable[k].fragment)
  {
  }

  lemma CampfireSmokeFragments(p: string)
    requires p == "campfire_cosy_smoke"
    ensures !StartsWith(p, "dust") && !Contains(p, "entity_effect") && !Contains(p, "note")
    ensures !Contains(p, "flame") && !Contains(p, "heart") && !Contains(p, "crit") && Contains(p, "smoke")
  {
    assert p[..4][0] == 'c';
    MissingCharacter(p, "entity_effect", 'n');
    MissingCharacter(p, "note", 'n');
    MissingCharacter(p, "flame", 'l');
    MissingCharacter(p, "heart", 'h');
    MissingCharacter(p, "crit", 't');
    ContainsAt(p, "smoke", 14);
  }

  /** `campfire_cosy_smoke` takes the smoke palette: no earlier fragment occurs in it. */
  lemma CampfireSmoke(s: CommandState)
    requires s.particle == "campfire_cosy_smoke"
    ensures GetColors(s) == [Hex("#555555"), Hex("#333333"), Hex("#777777")]
  {
    CampfireSmokeFragments(s.particle);
    SmokeEntry(s.particle);
    GetColorsFromTable(s);
  }

  lemma SoulFireFlameFragments(p: string)
    requires p == "soul_fire_flame"
    ensures !StartsWith(p, "dust") && !Contains(p, "entity_effect") && !Contains(p, "note")
    ensures Contains(p, "flame") && Contains(p, "soul")
  {
    assert p[..4][0] == 's';
    MissingCharacter(p, "entity_effect", 'n');
    MissingCharacter(p, "note", 'n');
    ContainsAt(p, "flame", 10);
    ContainsAt(p, "soul", 0);
  }

  /** `soul_fire_flame` holds both the soul and the flame fragment and takes the flame palette, whose
      entry comes first. */
  lemma SoulFireFlame(s: CommandState)
    requires s.particle == "soul_fire_flame"
    ensures GetColors(s) == [Hex("#ff4500"), Hex("#ffa500"), Hex("#cf3000")]
  {
    SoulFireFlameFragments(s.particle);
    FlameEntry(s.particle);
    GetColorsFromTable(s);
  }

  lemma BareDustFragments(p: string)
    requires p == "dust"
    ensures |Split(p)| == 1 && !Contains(p, "entity_effect")
    ensures !Contains(p, "flame") && !Contains(p, "heart") && !Contains(p, "crit") && !Contains(p, "smoke")
    ensures !Contains(p, "portal") && !Contains(p, "end_rod") && !Contains(p, "dragon_breath")
    ensures !Contains(p, "enchant") && !Contains(p, "note") && !Contains(p, "cloud")
    ensures !Contains(p, "witch") && !Contains(p, "soul")
  {
    SplitOfToken(p);
    LongerMissing(p, "entity_effect");
    MissingCharacter(p, "note", 'n');
    LongerMissing(p, "flame");
    LongerMissing(p, "heart");
    MissingCharacter(p, "crit", 'c');
    LongerMissing(p, "smoke");
    LongerMissing(p, "portal");
    LongerMissing(p, "end_rod");
    LongerMissing(p, "dragon_breath");
    LongerMissing(p, "enchant");
    LongerMissing(p, "cloud");
    LongerMissing(p, "witch");
    MissingCharacter(p, "soul", 'o');
  }

  /** Bare `dust` has no channel pieces, matches no table entry, and is drawn white. */
  lemma BareDust(s: CommandState)
    requires s.particle == "dust"
    ensures GetColors(s) == White
  {
    BareDustFragments(s.particle);
    NoEntry(s.particle);
    GetColorsFromTable(s);
  }

  /** Five space-free pieces joined by single spaces split back into those pieces. */
  lemma FivePieces(p: string, a: string, b: string, c: string, d: string, e: string)
    requires ' ' !in a && ' ' !in b && ' ' !in c && ' ' !in d && ' ' !in e
    requires p == a + " " + (b + " " + (c + " " + (d + " " + e)))
    ensures Split(p) == [a, b, c, d, e]
  {
    SplitOfToken(e);
    SplitCons(d, e);
    SplitCons(c, d + " " + e);
    SplitCons(b, c + " " + (d + " " + e));
    SplitCons(a, b + " " + (c + " " + (d + " " + e)));
  }

  lemma DustWithChannelsPieces(p: string)
    requires p == "dust 1.0 0.0 0.0 1.0"
    ensures Split(p) == ["dust", "1.0", "0.0", "0.0", "1.0"] && StartsWith(p, "dust")
  {
    FivePieces(p, "dust", "1.0", "0.0", "0.0", "1.0");
    assert p[..4] == "dust";
  }

  /** `dust 1.0 0.0 0.0 1.0` is drawn in the one colour of its first three numbers. */
  lemma DustWithChannels(s: CommandState)
    requires s.particle == "dust 1.0 0.0 0.0 1.0"
    ensures GetColors(s) == [FromChannels("1.0", "0.0", "0.0", false)]
  {
    DustWithChannelsPieces(s.particle);
    GetColorsDust(s);
  }

  /** Eight space-free pieces joined by single spaces split back into those pieces. */
  lemma EightPieces(p: string, a: string, b: string, c: string, d: string, e: string, f: string, g: string, h: string)
    requires ' ' !in a && ' ' !in b && ' ' !in c && ' ' !in d
    requires ' ' !in e && ' ' !in f && ' ' !in g && ' ' !in h
    requires p == a + " " + (b + " " + (c + " " + (d + " " + (e + " " + (f + " " + (g + " " + h))))))
    ensures Split(p) == [a, b, c, d, e, f, g, h]
  {
    var q := d + " " + (e + " " + (f + " " + (g + " " + h)));
    FivePieces(q, d, e, f, g, h);
    SplitCons(c, q);
    SplitCons(b, c + " " + q);
    SplitCons(a, b + " " + (c + " " + q));
  }

  /** The transition example written as its eight space-separated pieces. */
  lemma DustColourTransitionText(p: string)
    requires p == "dust_color_transition 1 0 0 1 0 0 1"
    ensures p == "dust_color_transition" + " " + ("1" + " " + ("0" + " " + ("0" + " " + ("1" + " " + ("0" + " " + ("0" + " " + "1"))))))
  {
  }

  lemma DustColourTransitionPieces(p: string)
    requires p == "dust_color_transition 1 0 0 1 0 0 1"
    ensures Split(p) == ["dust_color_transition", "1", "0", "0", "1", "0", "0", "1"] && StartsWith(p, "dust")
  {
    DustColourTransitionText(p);
    EightPieces(p, "dust_color_transition", "1", "0", "0", "1", "0", "0", "1");
    assert p[..4] == "dust";
  }

  /** The two-colour transition dust starts with `dust` too, so it is drawn in its first colour alone. */
  lemma DustColourTransition(s: CommandState)
    requires s.particle == "dust_color_transition 1 0 0 1 0 0 1"
    ensures GetColors(s) == [FromChannels("1", "0", "0", false)]
  {
    DustColourTransitionPieces(s.particle);
    GetColorsDust(s);
  }

  lemma EntityEffectFragments(p: string)
    requires p == "entity_effect"
    ensures !StartsWith(p, "dust") && Contains(p, "entity_effect")
  {
    assert p[..4][0] == 'e';
    ContainsAt(p, "entity_effect", 0);
  }

  lemma EntityEffectEarlyFragments(p: string)
    requires p == "entity_effect"
    ensures !Contains(p, "flame") && !Contains(p, "heart") && !Contains(p, "crit")
  {
    MissingCharacter(p, "flame", 'l');
    MissingCharacter(p, "heart", 'h');
    MissingCharacter(p, "crit", 'r');
  }

  lemma EntityEffectMiddleFragments(p: string)
    requires p == "entity_effect"
    ensures !Contains(p, "smoke") && !Contains(p, "portal") && !Contains(p, "end_rod")
  {
    MissingCharacter(p, "smoke", 's');
    MissingCharacter(p, "portal", 'p');
    MissingCharacter(p, "end_rod", 'd');
  }

  lemma EntityEffectLaterFragments(p: string)
    requires p == "entity_effect"
    ensures !Contains(p, "dragon_breath") && !Contains(p, "enchant") && !Contains(p, "note")
  {
    MissingCharacter(p, "dragon_breath", 'd');
    MissingCharacter(p, "enchant", 'h');
    MissingCharacter(p, "note", 'o');
  }

  lemma EntityEffectLastFragments(p: string)
    requires p == "entity_effect"
    ensures !Contains(p, "cloud") && !Contains(p, "witch") && !Contains(p, "soul")
  {
    MissingCharacter(p, "cloud", 'l');
    MissingCharacter(p, "witch", 'w');
    MissingCharacter(p, "soul", 's');
  }

  /** A potion swirl with the zero count is drawn in the colour its deltas give; with any other count it
      matches no table entry and is drawn white. */
  lemma EntityEffectColourMode(s: CommandState)
    requires s.particle == "entity_effect"
    ensures IsColourModeCount(s.count) ==> GetColors(s) == [FromChannels(s.dx, s.dy, s.dz, true)]
    ensures !IsColourModeCount(s.count) ==> GetColors(s) == White
  {
    EntityEffectFragments(s.particle);
    EntityEffectEarlyFragments(s.particle);
    EntityEffectMiddleFragments(s.particle);
    EntityEffectLaterFragments(s.particle);
    EntityEffectLastFragments(s.particle);
    if IsColourModeCount(s.count) {
      GetColorsColourMode(s);
    } else {
      NoEntry(s.particle);
      GetColorsFromTable(s);
    }
  }

  lemma NoteFragments(p: string)
    requires p == "note"
    ensures !StartsWith(p, "dust") && Contains(p, "note")
  {
    assert p[..4][0] == 'n';
    ContainsAt(p, "note", 0);
  }

  /** A note block with the zero count is drawn in the four pitch colours. */
  lemma NoteColourMode(s: CommandState)
    requires s.particle == "note" && s.count == "0"
    ensures GetColors(s) == NotePalette
  {
    NoteFragments(s.particle);
    GetColorsColourMode(s);
  }
}

=== FILE: text.dfy ===
/**
 * String helpers with the semantics of the JavaScript built-ins the command
 * builder calls: `trim`, `startsWith`, `includes` and `split(' ')`.
 * Strings are sequences of characters; no normalisation or case folding.
 */
module Text {

  /** The characters ECMAScript classes as WhiteSpace or LineTerminator: the set `trim` and `Number` strip. */
  predicate IsJsSpace(c: char) {
    var n := c as int;
    || n == 0x09 || n == 0x0A || n == 0x0B || n == 0x0C || n == 0x0D || n == 0x20
    || n == 0xA0 || n == 0x1680 || (0x2000 <= n <= 0x200A) || n == 0x2028 || n == 0x2029
    || n == 0x202F || n == 0x205F || n == 0x3000 || n == 0xFEFF
  }

  /** The regular-expression class `\d` without the unicode flag. */
  predicate IsDigit(c: char) {
    '0' <= c <= '9'
  }

  predicate AllDigits(s: string) {
    forall i :: 0 <= i < |s| ==> IsDigit(s[i])
  }

  /** The length of the longest all-digit prefix. */
  function DigitRun(s: string): (n: nat)
    ensures n <= |s|
    ensures AllDigits(s[..n])
    ensures n == |s| || !IsDigit(s[n])
  {
    if |s| > 0 && IsDigit(s[0]) then
      var n := 1 + DigitRun(s[1..]);
      assert s[..n] == [s[0]] + s[1..][..n - 1];
      n
    else 0
  }

  /** A run of digits followed by a non-digit (or nothing) has exactly that run as its digit prefix. */
  lemma {:induction false} DigitRunOfDigits(d: string, rest: string)
    requires AllDigits(d)
    requires rest == [] || !IsDigit(rest[0])
    ensures DigitRun(d + rest) == |d|
  {
    if |d| > 0 {
      assert (d + rest)[1..] == d[1..] + rest;
      DigitRunOfDigits(d[1..], rest);
    }
  }

  /** Every character is white space; the empty string is blank. */
  predicate IsBlank(s: string) {
    forall i :: 0 <= i < |s| ==> IsJsSpace(s[i])
  }

  /** Drops the leading white space. */
  function TrimStart(s: string): (r: string)
    ensures |r| <= |s| && r == s[|s| - |r|..]
    ensures IsBlank(s[..|s| - |r|])
    ensures r == [] || !IsJsSpace(r[0])
  {
    if |s| > 0 && IsJsSpace(s[0]) then
      var r := TrimStart(s[1..]);
      var k := |s| - |r|;
      assert forall i :: 0 <= i < k ==> s[..k][i] == s[i];
      assert forall i :: 1 <= i < k ==> s[i] == s[1..][..k - 1][i - 1];
      r
    else s
  }

  /** Drops the trailing white space. */
  function TrimEnd(s: string): (r: string)
    ensures |r| <= |s| && r == s[..|r|]
    ensures IsBlank(s[|r|..])
    ensures r == [] || !IsJsSpace(r[|r| - 1])
  {
    if |s| > 0 && IsJsSpace(s[|s| - 1]) then
      var r := TrimEnd(s[..|s| - 1]);
      assert forall i :: |r| <= i < |s| - 1 ==> s[i] == s[..|s| - 1][|r|..][i - |r|];
      assert forall i :: 0 <= i < |s| - |r| ==> s[|r|..][i] == s[|r| + i];
      r
    else s
  }

  /** `r` is what is left of `s` once a blank prefix of length `k` and a blank suffix are cut off. */
  predicate BlankCut(s: string, r: string, k: int) {
    0 <= k <= |s| - |r| && r == s[k..k + |r|] && IsBlank(s[..k]) && IsBlank(s[k + |r|..])
  }

  /** Trimming the start and then the end cuts a blank prefix and a blank suffix. */
  lemma TrimPieces(s: string, t: string, r: string)
    requires |t| <= |s| && t == s[|s| - |t|..] && IsBlank(s[..|s| - |t|])
    requires |r| <= |t| && r == t[..|r|] && IsBlank(t[|r|..])
    ensures BlankCut(s, r, |s| - |t|)
  {
    var k := |s| - |t|;
    assert s == s[..k] + t;
    assert s[k + |r|..] == t[|r|..];
  }

  /** `String.prototype.trim`: empty exactly for blank input, otherwise bounded by non-space characters. */
  function Trim(s: string): (r: string)
    ensures |r| <= |s|
    ensures r == [] <==> IsBlank(s)
    ensures r != [] ==> !IsJsSpace(r[0]) && !IsJsSpace(r[|r| - 1])
  {
    var t := TrimStart(s);
    assert s == s[..|s| - |t|] + t;
    TrimEnd(t)
  }

  /** Trimming removes nothing but white space: the result is the piece of `s` left once a blank
      prefix and a blank suffix are cut off. */
  lemma TrimCutsBlankEnds(s: string)
    ensures exists k :: BlankCut(s, Trim(s), k)
  {
    var t := TrimStart(s);
    var r := TrimEnd(t);
    assert Trim(s) == r;
    TrimPieces(s, t, r);
  }

  /** A string that neither starts nor ends with white space is its own trim. */
  lemma TrimOfTrimmed(s: string)
    requires s != [] && !IsJsSpace(s[0]) && !IsJsSpace(s[|s| - 1])
    ensures Trim(s) == s
  {
  }

  /** The optional minus sign written in front of a number. */
  function SignText(negative: bool): string {
    if negative then "-" else ""
  }

  /** `String.prototype.startsWith`. */
  predicate StartsWith(s: string, prefix: string) {
    |prefix| <= |s| && s[..|prefix|] == prefix
  }

  /** `sub` occurs in `s` starting at index `i`. */
  predicate OccursAt(s: string, sub: string, i: int) {
    0 <= i && i + |sub| <= |s| && s[i..i + |sub|] == sub
  }

  /** `String.prototype.includes`: `sub` occurs at some index of `s`. */
  predicate Contains(s: string, sub: string) {
    exists i | 0 <= i <= |s| - |sub| :: OccursAt(s, sub, i)
  }

  /** An occurrence at any index is found. */
  lemma ContainsAt(s: string, sub: string, i: int)
    requires OccursAt(s, sub, i)
    ensures Contains(s, sub)
  {
  }

  /** A string cannot contain a piece that holds a character the string lacks. */
  lemma MissingCharacter(s: string, sub: string, c: char)
    requires c in sub && c !in s
    ensures !Contains(s, sub)
  {
  }

  /** A string never contains a longer one. */
  lemma LongerMissing(s: string, sub: string)
    requires |s| < |sub|
    ensures !Contains(s, sub)
  {
  }

  /** `String.prototype.split(' ')`: the pieces between single spaces, empty pieces kept. */
  function Split(s: string): (r: seq<string>)
    ensures |r| >= 1
    ensures forall k :: 0 <= k < |r| ==> ' ' !in r[k]
  {
    if |s| == 0 then [""]
    else
      var rest := Split(s[1..]);
      if s[0] == ' ' then [""] + rest else [[s[0]] + rest[0]] + rest[1..]
  }

  /** `Array.prototype.join(' ')` for a non-empty list of pieces. */
  function Join(ts: seq<string>): string
    requires |ts| >= 1
  {
    if |ts| == 1 then ts[0] else ts[0] + " " + Join(ts[1..])
  }

  /** A space splits its two sides independently. */
  lemma {:induction false} SplitAtSpace(a: string, b: string)
    ensures Split(a + " " + b) == Split(a) + Split(b)
  {
    if |a| == 0 {
      assert a + " " + b == [' '] + b;
      assert ([' '] + b)[1..] == b;
    } else {
      assert (a + " " + b)[1..] == a[1..] + " " + b;
      SplitAtSpace(a[1..], b);
    }
  }

  /** A piece without spaces splits to itself. */
  lemma {:induction false} SplitOfToken(t: string)
    requires ' ' !in t
    ensures Split(t) == [t]
  {
    if |t| > 0 {
      SplitOfToken(t[1..]);
      assert [t[0]] + t[1..] == t;
    }
  }

  /** A space-free piece followed by a space is the first piece of the split. */
  lemma SplitCons(t: string, rest: string)
    requires ' ' !in t
    ensures Split(t + " " + rest) == [t] + Split(rest)
  {
    SplitAtSpace(t, rest);
    SplitOfToken(t);
  }

  /** Joining the pieces of a split gives back the string. */
  lemma {:induction false} JoinSplit(s: string)
    ensures Join(Split(s)) == s
  {
    if |s| > 0 {
      JoinSplit(s[1..]);
      var rest := Split(s[1..]);
      if s[0] == ' ' {
        assert Split(s) == [""] + rest;
        assert ([""] + rest)[1..] == rest;
        assert Join(Split(s)) == "" + " " + Join(rest);
        assert s == [' '] + s[1..];
      } else {
        var head := [s[0]] + rest[0];
        assert Split(s) == [head] + rest[1..];
        if |rest| == 1 {
          assert Join(rest) == rest[0];
        } else {
          assert ([head] + rest[1..])[1..] == rest[1..];
          assert Join(rest) == rest[0] + " " + Join(rest[1..]);
        }
        assert s == [s[0]] + s[1..];
      }
    }
  }

  /** Splitting the join of space-free pieces gives back the pieces. */
  lemma {:induction false} SplitJoin(ts: seq<string>)
    requires |ts| >= 1
    requires forall k :: 0 <= k < |ts| ==> ' ' !in ts[k]
    ensures Split(Join(ts)) == ts
  {
    SplitOfToken(ts[0]);
    if |ts| > 1 {
      SplitJoin(ts[1..]);
      SplitAtSpace(ts[0], Join(ts[1..]));
      assert [ts[0]] + ts[1..] == ts;
    }
  }

  /** Joining a piece in front of a non-empty list puts one space between them. */
  lemma JoinCons(t: string, ts: seq<string>)
    requires |ts| >= 1
    ensures Join([t] + ts) == t + " " + Join(ts)
  {
    assert ([t] + ts)[1..] == ts;
  }
}

=== FILE: validation.dfy ===
/**
 * `validateField`: a total function from an input's name and raw text to an
 * error key. The blank check comes first for every name; then the name picks
 * the rule: coordinates for x/y/z, a number for dx/dy/dz, a non-negative
 * number for speed, a non-negative integer for count, nothing more for the
 * rest.
 */
module Validation {
  import opened Text
  import opened Numbers
  import opened Coordinates

  /** The error keys, `''` meaning no error. */
  datatype ErrorKey = NoError | Required | InvalidCoord | InvalidNumber | InvalidInteger | MinZero {

    /** The key as stored in the error map and looked up in the translation table. */
    function Key(): string {
      match this
      case NoError => ""
      case Required => "required"
      case InvalidCoord => "invalid_coord"
      case InvalidNumber => "invalid_number"
      case InvalidInteger => "invalid_integer"
      case MinZero => "min_zero"
    }

    /** JavaScript truthiness of the key: every key but `''` counts as an error. */
    predicate IsError() {
      Key() != ""
    }
  }

  /** The checks on `dx`, `dy` and `dz`: a number. */
  function DeltaRule(n: Number): ErrorKey {
    if n.IsNaN() then InvalidNumber else NoError
  }

  /** The checks on `speed`, in order: a number, then not below zero. */
  function SpeedRule(n: Number): ErrorKey {
    if n.IsNaN() then InvalidNumber
    else if n.LessThanZero() then MinZero
    else NoError
  }

  /** The checks on `count`, in order: a number, then an integer, then not below zero. */
  function CountRule(n: Number): ErrorKey {
    if n.IsNaN() then InvalidNumber
    else if !n.IsInteger() then InvalidInteger
    else if n.LessThanZero() then MinZero
    else NoError
  }

  /** `validateField(name, value)` */
  function Validate(name: string, value: string): (r: ErrorKey)
    ensures r == Required <==> IsBlank(value)
    ensures r == InvalidCoord ==> name in {"x", "y", "z"}
    ensures r == InvalidNumber ==> name in {"dx", "dy", "dz", "speed", "count"}
    ensures r == MinZero ==> name in {"speed", "count"}
    ensures r == InvalidInteger ==> name == "count"
  {
    if Trim(value) == [] then Required
    else if name == "x" || name == "y" || name == "z" then
      if IsCoordinate(value) then NoError else InvalidCoord
    else if name == "dx" || name == "dy" || name == "dz" then DeltaRule(ToNumber(value))
    else if name == "speed" then SpeedRule(ToNumber(value))
    else if name == "count" then CountRule(ToNumber(value))
    else NoError
  }

  /** A non-blank value is judged by its name's rule on the number it converts to. */
  lemma ValidateNumeric(name: string, value: string)
    requires !IsBlank(value)
    ensures name in {"dx", "dy", "dz"} ==> Validate(name, value) == DeltaRule(ToNumber(value))
    ensures name == "speed" ==> Validate(name, value) == SpeedRule(ToNumber(value))
    ensures name == "count" ==> Validate(name, value) == CountRule(ToNumber(value))
  {
    var n := ToNumber(value);
    assert Trim(value) != [];
    if name == "count" {
      assert Validate(name, value) == CountRule(n);
    }
  }

  /** Only the empty key is not an error. */
  lemma IsErrorExactlyNonEmpty(k: ErrorKey)
    ensures k.IsError() <==> k != NoError
  {
  }

  /** A coordinate field is accepted exactly when its text is in the coordinate language, and any
      other non-blank text is an invalid coordinate. */
  lemma ValidateCoordinate(name: string, value: string)
    requires name in {"x", "y", "z"} && !IsBlank(value)
    ensures Validate(name, value) == NoError <==> InCoordinateLanguage(value)
    ensures Validate(name, value) in {NoError, InvalidCoord}
  {
    CoordinateLanguage(value);
  }

  /** Particle and mode, like any name without a rule of its own, only need a non-blank value. */
  lemma ValidateUntyped(name: string, value: string)
    requires name !in {"x", "y", "z", "dx", "dy", "dz", "speed", "count"}
    ensures Validate(name, value) == (if IsBlank(value) then Required else NoError)
  {
  }

  /** An integer count is rejected only when it is below zero. */
  lemma CountRuleOfInteger(negative: bool, d: nat)
    ensures CountRule(Finite(Signed(negative, d as real))) == if negative && d > 0 then MinZero else NoError
  {
    var m: int := d;
    var k: int := if negative then -m else m;
    assert Signed(negative, d as real) == k as real;
    assert (k as real).Floor == k;
  }

  /** A finite count with a fractional part fails the integer check. */
  lemma CountRuleOfFraction(n: Number)
    requires n.Finite? && !n.IsInteger()
    ensures CountRule(n) == InvalidInteger
  {
  }

  /** A speed is rejected only when it is below zero. */
  lemma SpeedRuleOfMagnitude(negative: bool, x: real)
    requires x >= 0.0
    ensures SpeedRule(Finite(Signed(negative, x))) == if negative && x > 0.0 then MinZero else NoError
  {
  }

  /** A count written as an optionally negated digit string is accepted unless it is below zero. */
  lemma ValidateCountInteger(negative: bool, digits: string, v: string)
    requires AllDigits(digits) && |digits| >= 1 && v == SignText(negative) + digits
    ensures Validate("count", v) == if negative && DecimalValue(digits) > 0 then MinZero else NoError
  {
    var n := Finite(Signed(negative, DecimalValue(digits) as real));
    ToNumberOfInteger(negative, digits);
    ValidateNumeric("count", v);
    CountRuleOfInteger(negative, DecimalValue(digits));
  }

  /** A count with a fraction that ends in a non-zero digit is not an integer, whatever its sign;
      the integer check comes before the sign check. */
  lemma ValidateCountFraction(negative: bool, whole: string, fraction: string, v: string)
    requires AllDigits(whole) && AllDigits(fraction) && |fraction| >= 1
    requires fraction[|fraction| - 1] != '0'
    requires v == SignText(negative) + (whole + "." + fraction)
    ensures Validate("count", v) == InvalidInteger
  {
    var n := Finite(Signed(negative, DecimalScaled(DecimalValue(whole + fraction), -|fraction|)));
    ToNumberOfFraction(negative, whole, fraction);
    FractionNotInteger(negative, whole, fraction);
    ValidateNumeric("count", v);
    CountRuleOfFraction(n);
  }

  /** A speed written as an optionally negated decimal is accepted unless it is below zero. */
  lemma ValidateSpeedDecimal(negative: bool, whole: string, fraction: string, v: string)
    requires AllDigits(whole) && AllDigits(fraction) && |fraction| >= 1
    requires v == SignText(negative) + (whole + "." + fraction)
    ensures Validate("speed", v) == if negative && DecimalValue(whole + fraction) > 0 then MinZero else NoError
  {
    var x := DecimalScaled(DecimalValue(whole + fraction), -|fraction|);
    ToNumberOfFraction(negative, whole, fraction);
    DecimalScaledPositive(DecimalValue(whole + fraction), -|fraction|);
    ValidateNumeric("speed", v);
    SpeedRuleOfMagnitude(negative, x);
  }

  /** Text that cannot start a number, such as a coordinate marker, is rejected by the number rules. */
  lemma ValidateNonNumeric(name: string, value: string)
    requires name in {"dx", "dy", "dz", "speed", "count"}
    requires value != [] && !IsJsSpace(value[0])
    requires !IsDigit(value[0]) && value[0] !in {'.', '+', '-', 'I'}
    ensures Validate(name, value) == InvalidNumber
  {
    ToNumberOfNonNumeric(value);
  }

  /** `'-1'` is a whole number below zero. */
  lemma CountMinusOne(v: string)
    requires v == "-1"
    ensures Validate("count", v) == MinZero
  {
    ValidateCountInteger(true, "1", v);
    assert DecimalValue("1") == 1 by {
      assert "1"[..0] == "";
    }
  }

  /** `'1.5'` is not an integer. */
  lemma CountOnePointFive(v: string)
    requires v == "1.5"
    ensures Validate("count", v) == InvalidInteger
  {
    ValidateCountFraction(false, "1", "5", v);
  }

  /** `'-1.5'` fails the integer check before the sign check is reached. */
  lemma CountMinusOnePointFive(v: string)
    requires v == "-1.5"
    ensures Validate("count", v) == InvalidInteger
  {
    ValidateCountFraction(true, "1", "5", v);
  }

  /** The form's initial count `'10'` is accepted. */
  lemma CountTen(v: string)
    requires v == "10"
    ensures Validate("count", v) == NoError
  {
    ValidateCountInteger(false, "10", v);
  }

  /** The form's initial speed `'0.1'` is accepted. */
  lemma SpeedPointOne(v: string)
    requires v == "0.1"
    ensures Validate("speed", v) == NoError
  {
    ValidateSpeedDecimal(false, "0", "1", v);
  }

  /** A coordinate field accepts non-blank text in the coordinate language. */
  lemma ValidateCoordinateAccepts(name: string, value: string)
    requires name in {"x", "y", "z"}
    requires !IsBlank(value) && IsCoordinate(value)
    ensures Validate(name, value) == NoError
  {
  }

  /** A coordinate field rejects non-blank text outside the coordinate language. */
  lemma ValidateCoordinateRejects(name: string, value: string)
    requires name in {"x", "y", "z"}
    requires !IsBlank(value) && !IsCoordinate(value)
    ensures Validate(name, value) == InvalidCoord
  {
  }

  /** A doubled marker is no coordinate. */
  lemma CoordinateDoubledMarker(v: string)
    requires v == "~~"
    ensures Validate("x", v) == InvalidCoord
  {
    NotCoordinates();
    ValidateCoordinateRejects("x", v);
  }

  /** A marker with a negative offset is a coordinate. */
  lemma CoordinateRelativeNegative(v: string)
    requires v == "~-5"
    ensures Validate("x", v) == NoError
  {
    TildeMinusFiveIsCoordinate();
    ValidateCoordinateAccepts("x", v);
  }

  /** A coordinate marker is not a number. */
  lemma DeltaMarker(v: string)
    requires v == "~"
    ensures Validate("dx", v) == InvalidNumber
  {
    ValidateNonNumeric("dx", v);
  }

  /** The form's initial `x` and `z`, a bare relative marker, are accepted. */
  lemma CoordinateTilde(name: string, v: string)
    requires name in {"x", "y", "z"} && v == "~"
    ensures Validate(name, v) == NoError
  {
    TildeIsCoordinate();
    ValidateCoordinateAccepts(name, v);
  }

  /** The form's initial `y`, one block above, is accepted. */
  lemma CoordinateTildeOne(name: string, v: string)
    requires name in {"x", "y", "z"} && v == "~1"
    ensures Validate(name, v) == NoError
  {
    TildeOneIsCoordinate();
    ValidateCoordinateAccepts(name, v);
  }

  /** The form's initial deltas `'0'` are accepted. */
  lemma DeltaZero(name: string, v: string)
    requires name in {"dx", "dy", "dz"} && v == "0"
    ensures Validate(name, v) == NoError
  {
    var d := "0";
    ToNumberOfInteger(false, d);
    assert SignText(false) + d == v;
    ValidateNumeric(name, v);
  }

  /** The cases the form's error messages are written for, together. */
  lemma ValidateExamples()
    ensures Validate("count", "-1") == MinZero
    ensures Validate("count", "1.5") == InvalidInteger
    ensures Validate("count", "-1.5") == InvalidInteger
    ensures Validate("count", "10") == NoError
    ensures Validate("speed", "0.1") == NoError
    ensures Validate("x", "~~") == InvalidCoord
    ensures Validate("x", "~-5") == NoError
    ensures Validate("dx", "~") == InvalidNumber
  {
    CountMinusOne("-1");
    CountOnePointFive("1.5");
    CountMinusOnePointFive("-1.5");
    CountTen("10");
    SpeedPointOne("0.1");
    CoordinateDoubledMarker("~~");
    CoordinateRelativeNegative("~-5");
    DeltaMarker("~");
  }
}
